=== FILE: README.md ===
# the.cook — a Dafny model of the lunch organiser's core

`the.cook` organises the office lunch. Someone adds a lunch for a date with a
menu written as `french (english)`. Colleagues subscribe to it for one or more
persons. The lunches of a date range can be listed with their subscription
counts, and a lunch can be removed together with its subscriptions. The data
lives in three tables: users, lunches and subscriptions.

This project models three parts of it:

- **Command-line parsing.** The model covers `validate_date`,
  `validate_range` and `validate_menu`.
- **Records.** The model covers the `User`, `Lunch` and `Subscription`
  records with their unique columns, plus the user helpers `email`, `phone`,
  `fullname` and `name_and_email`.
- **The commands over the database.** The model covers `get_current_user`,
  `add`, `remove`, `subscribe` and `list_entries`.

The modules are:

- `Results` (`results.dfy`) holds `Result` and `Option`. Python's exceptions
  become `Err` values, one `Error` constructor per cause:
  - `ValueError` from `strptime` or `date(...)` becomes `FormatMismatch` or
    `InvalidDate`;
  - the range and menu checks become `TooManyDots`, `NoRangeSeparator` and
    `TooManyParens`;
  - the `AttributeError` on a missing lunch becomes `NoSuchLunch`;
  - the database's `IntegrityError` keeps its name;
  - `int('')` on an unknown login becomes `UnknownLogin`;
  - the unpacking errors of the directory helpers become `NoSecondLine` and
    `NoSpace`.
- `Text` (`text.dfy`) models the Python 2 byte-string operations used:
  `count`, `split`, `find`, `rsplit`, `strip`, `lower`. Strings are byte
  strings, so `lower` is ASCII and `strip` removes space, tab, newline,
  carriage return, vertical tab and form feed.
- `Dates` (`dates.dfy`) models `datetime.date`: proleptic Gregorian
  calendar, years 1–9999, and chronological order. The open ends of a range
  are the date parts of `datetime.min` and `datetime.max`.
- `Schema` (`schema.py`'s validators). `strptime` is modelled by its Python
  2.7 regular expressions:
  - `%d` is `3[01]|[12]\d|0[1-9]|[1-9]| [1-9]`, so a leading-space day such
    as `" 5"` is accepted;
  - `%m` is `1[0-2]|0[1-9]|[1-9]`;
  - `%y` is exactly two digits, and 00–68 map to 2000–2068 while 69–99 map to
    1969–1999.

  Its default year 1900 and default January matter: `dd.mm` must name a real
  day of 1900 as well as of the current year, so `29.02` is always refused.
  The current date is a parameter.
- `RowIds` (`rowids.dfy`) holds the embedded database's row-id rules. A new
  row gets one more than the largest id, or 1 in an empty table. A query
  without `ORDER BY` meets rows by ascending id, so `.first()` is the least
  matching id.
- `Models` (`models.dfy`) holds the records, the user helpers and the
  database as three maps keyed by row id. `WellFormed` collects what the
  commands keep true of the tables. Only two of its parts are constraints
  the tables declare:
  - users are keyed by their id, the primary key;
  - `user.name`, `lunch.menu_french` and `lunch.menu_english` are each
    unique.

  The other parts hold only because the commands keep them:
  - foreign keys name stored rows, which the embedded database does not
    check;
  - there is one subscription per (lunch, user) pair. The subscription table
    declares no unique constraint on that pair (models.py:98-113); `subscribe`
    keeps it by looking for an existing subscription first (menu.py:55-59);
  - stored dates are real days.
- `Commands` (`commands.dfy`) holds the `menu.py` commands. Each one maps the
  database as committed before it to the database as committed after it,
  with a value or an error. The person running the command is an
  `Identity`: the uid, the login, and what `id -u <login>` prints.

The command-line help and the tests of the program expect two behaviours
that the modelled commands do not have. The model follows the commands:

- **Unconditional cascade.** The command-line help offers
  `remove [--force]` (the/cook/scripts/manage.py, lines 11 and 53), and
  the/cook/test_menu.py (lines 175-181) expects `remove` without force to
  refuse a lunch that has subscriptions. The `remove` command
  (menu.py:35-47) takes no such flag and always deletes the lunch's
  subscriptions with it (`RemoveCascades`).
- **Which lunch a date names.** the/cook/test_menu.py (line 103) subscribes
  to the keyword `next` and expects the next lunch. `subscribe` and `remove`
  take the first lunch with exactly the given date (`LunchAt`). They
  understand no keyword.

Four behaviours of the code are worth knowing:

- **Duplicate dates.** The lunch date is not a unique column (models.py:76),
  and `add` does not check for an existing lunch on the date
  (`SameDateTwice`).
- **Commits that persist.** A command that fails after registering the
  current user keeps that user. `get_current_user` commits before the rest
  of the command runs.
- **Mismatched ids.** When `id -u <login>` prints another id than the
  process's uid, the user is stored under that other id. Every later `add`
  and `subscribe` then fails (`GetCurrentUserIdMismatch`), because both look
  the user up by uid first. `remove` and `list` never look up the user
  (menu.py:35-47 and 69-84), so they keep working.
- **French-only menus.** Every French-only menu stores the empty English
  text, and that column is unique. So at most one French-only lunch can
  exist at a time (`TwoFrenchOnlyMenus`).

## Model

| member | source | states |
|---|---|---|
| `Text.Count` | the/cook/schema.py:31 | The count is zero exactly when the character does not occur, and never exceeds the length. |
| `Text.Split` | the/cook/schema.py:79 | There is one more piece than there are separators, and no piece holds the separator. |
| `Text.JoinSplit` | the/cook/schema.py:79 | Joining the pieces of a split with the separator gives the input back. |
| `Text.SplitJoin` | the/cook/schema.py:79 | Splitting the join of separator-free pieces gives back the same pieces. |
| `Text.Find` | the/cook/schema.py:57-61 | It gives the first position where `..` occurs, and none when `..` occurs nowhere. |
| `Text.LastIndexOf` | the/cook/models.py:44 | It gives the last position of the character, and none when the character is absent. |
| `Text.Trim` | the/cook/schema.py:81 | The result is one slice of the input. Everything before and after it is in the given set, and it neither starts nor ends with a character of the set. |
| `Text.Strip` | the/cook/schema.py:80-81 | The same for whitespace: the result is one slice of the input, only whitespace is dropped around it, and it neither starts nor ends with whitespace. |
| `Text.StripIdempotent` | the/cook/models.py:59 | Stripping a stripped text changes nothing. |
| `Text.Lower` | the/cook/schema.py:34 | The result has the input's length, and each character is the input's character with ASCII `A`–`Z` lowered. |
| `Dates.MakeDate` | the/cook/schema.py:36 | `date(y, m, d)` succeeds exactly when the fields name a real day; otherwise it is `InvalidDate`. |
| `Dates.SentinelsBound` | the/cook/schema.py:62-65 | Every real day lies between the `datetime.min` and `datetime.max` dates. |
| `Dates.LeapDay` | the/cook/schema.py:38 | February 29 exists exactly in leap years, and not in 1900. |
| `Dates.NotAfterTotalOrder` | the/cook/menu.py:76-79 | The order on dates that the range filter compares with is reflexive, antisymmetric, transitive and total. |
| `RowIds.NextRowId` | the/cook/models.py:74 | A new row id is unused and above every used id. It is 1 in an empty table. |
| `Schema.DayFieldTokens` | the/cook/schema.py:35 | The day field accepts exactly 1–31 as two digits, and 1–9 as one digit or as a space and one digit. |
| `Schema.MonthFieldTokens` | the/cook/schema.py:38 | The month field accepts exactly 1–12 as two digits, and 1–9 as one digit. |
| `Schema.Century` | the/cook/schema.py:41 | A two-digit year maps into 1969–2068 and keeps its last two digits. |
| `Schema.ValidateDate` | the/cook/schema.py:21-43 | Every parsed date is a real day. A dot-free `today` in any case gives today. `dd` keeps today's year and month. `dd.mm` keeps today's year, is a real day of 1900, and its day and month are what the two fields parse to. For `dd.mm.yy` the day, month and year are what the three fields parse to, so a malformed field such as the month in `12.13` fails. Three or more dots fail, and only they give `TooManyDots`. |
| `Schema.TodayInAnyCase` | the/cook/schema.py:33-34 | Any input whose lower-case form is `today` gives exactly today's date. |
| `Schema.DayOfCurrentMonth` | the/cook/schema.py:35-36 | `dd` gives that day of the current month, or `InvalidDate` when the month is too short. The one-digit and space-padded forms agree with it. |
| `Schema.DayToken` | the/cook/schema.py:35-36 | Any dot-free day field, including the space-padded ` 5`, gives `date(today.year, today.month, day)`, including its failure. |
| `Schema.DayMonthOfCurrentYear` | the/cook/schema.py:37-39 | `dd.mm` gives that day of the current year. It fails unless the day exists in 1900 and in the current year. |
| `Schema.LeapDayRefused` | the/cook/schema.py:38-39 | `29.02` and `29.2` are refused whatever today is. |
| `Schema.FullDate` | the/cook/schema.py:40-41 | `dd.mm.yy` is the date with the pivoted year, or `InvalidDate`. |
| `Schema.TwelfthOfMarch2004` | the/cook/test_schema.py:39-42 | `12.3.04` is 12 March 2004. |
| `Schema.ShortYearRefused` | the/cook/test_schema.py:54-57 | A year field that is not exactly two characters long, as in `12.3.4`, is a format error. |
| `Schema.ValidateRange` | the/cook/schema.py:45-67 | Input without `..` fails with `NoRangeSeparator`, and only such input does. Otherwise the input is split at the first `..`. The range succeeds exactly when both sides do. An empty side is the open end, and a non-empty side is that side's date. Both ends are real days. |
| `Schema.RangeSides` | the/cook/schema.py:61-67 | For `a..b`, where `a` holds no `..` and does not end in a dot, the bounds are exactly those of `a` and of `b`. |
| `Schema.OpenRanges` | the/cook/test_schema.py:44-52 | `..`, `today..` and `..today` give the open bounds and today where written. |
| `Schema.ValidateMenu` | the/cook/schema.py:69-87 | Two or more `(` fail with `TooManyParens`, and only they fail. Input with no `(` is the French text with an empty English text. With one `(`, neither side holds a `(` and both are stripped. |
| `Schema.MenuRoundTrip` | the/cook/schema.py:78-81 | `french (english)` parses back to that French and English text, for stripped texts without `(` and with no `)` at the ends of the English text. |
| `Schema.InnerParenKept` | the/cook/schema.py:81 | Only the outer `)` is removed. `a (b) c)` keeps `b) c` as the English text. |
| `Schema.MenuSides` | the/cook/schema.py:76-81 | For any texts `a` and `b` without `(`, `a(b)` parses to `a` stripped in French, and `b` stripped, without the `)` at its ends and stripped again in English. |
| `Schema.MenuWithoutSpace` | the/cook/schema.py:79-81 | `french(english)`, with no space before the `(`, parses like `french (english)`. |
| `Schema.MenuTrailingSpace` | the/cook/schema.py:81 | Whitespace after the `)` is dropped: `french (english) ` parses like `french (english)`. |
| `Models.NewUser` | the/cook/models.py:31-35 | The new user has the login as its name and the id that `id -u` prints. Without such an id, creation fails. |
| `Models.NewUserIgnoresId` | the/cook/models.py:31-35 | The id passed to the constructor has no effect. |
| `Models.Email` | the/cook/models.py:47-49 | The address adds exactly one `@` to the login name, whatever the name holds. |
| `Models.EmailParts` | the/cook/models.py:47-49 | The address has exactly one `@`, with the login before it and `idiap.ch` after it. |
| `Models.SecondLine` | the/cook/models.py:40 | A second line exists exactly when the output holds a newline, and it holds no newline itself. |
| `Models.SplitLastSpace` | the/cook/models.py:44 | Unpacking succeeds exactly when the line holds a space. The line is the two pieces joined by that space, and the last piece holds no space. |
| `Models.Phone` | the/cook/models.py:37-45 | Without the directory command the number is `+41277217XXX`. Otherwise it succeeds exactly when the output has a second line holding a space; a missing line or space is an error. Any number given starts with `+41277217`. |
| `Models.Fullname` | the/cook/models.py:51-59 | Without the directory command the name is `Joe Doe`. Otherwise it succeeds exactly when the output has a second line holding a space; a missing line or space is an error. |
| `Models.DirectoryPhone` | the/cook/models.py:37-45 | For a directory answer whose second line is `name number`, with or without a newline and more text after it, the phone is `+41277217` followed by the number with its surrounding whitespace stripped. |
| `Models.DirectoryFullname` | the/cook/models.py:51-59 | For the same answers, the full name is the name with its surrounding whitespace stripped, so the padding of a column-aligned line is dropped. |
| `Models.NameAndEmail` | the/cook/models.py:61-63 | The text is the full name, ` <`, the address and `>`, and fails exactly when the full name does. |
| `Models.NameAndEmailParts` | the/cook/models.py:61-63 | That text splits at its one `<` into the full name plus a space, and the address plus `>`. |
| `Models.NewLunch` | the/cook/models.py:85-91 | The lunch holds the date, gives back the menu pair as its French and English texts, and links the creator by id. |
| `Models.NewSubscription` | the/cook/models.py:115-122 | The subscription links the lunch and the user by id and keeps the persons count and the instant. |
| `Models.EmptyWellFormed` | the/cook/models.py:137-141 | The freshly created database, with three empty tables, is well formed. This is the base case the commands' preservation lemmas build on. |
| `Commands.GetCurrentUser` | the/cook/menu.py:12-22 | A user stored under the uid is returned unchanged. Otherwise, on success, exactly one user is added and returned: `User(id, login)` under the looked-up id. The commit fails, leaving the database as it was, when there is no such id or the id or name is already stored. Lunches and subscriptions never change. |
| `Commands.GetCurrentUserPreserves` | the/cook/models.py:28-29 | Registering the user keeps the tables well formed, in particular the names unique. |
| `Commands.GetCurrentUserIdempotent` | the/cook/menu.py:14-15 | When the login's id is the uid, a second call returns the same user and changes nothing. |
| `Commands.GetCurrentUserIdMismatch` | the/cook/menu.py:14-20 | When the login's id differs from the uid, the call after a successful registration fails with `IntegrityError`. |
| `Commands.Add` | the/cook/menu.py:24-33 | It succeeds exactly when the user step does and neither menu text is stored. On success it stores exactly one lunch under a fresh id, with nothing else changed; the command returns nothing, and the model's value, the new row id, stands for the lunch it prints. A failed user step's error is what `add` fails with. A commit failure is `IntegrityError`, and the user step's commit stays. |
| `Commands.AddStoresConstructedLunch` | the/cook/models.py:85-91 | The new lunch holds the date, both menu texts and the current user's id, that user is stored, and the table has one more row. |
| `Commands.AddPreserves` | the/cook/models.py:76-80 | Adding a lunch on a real day keeps the tables well formed, in particular both menu columns unique. |
| `Commands.SameDateTwice` | the/cook/models.py:76 | Two lunches with different menus can both be added for one date. |
| `Commands.TwoFrenchOnlyMenus` | the/cook/models.py:78-80 | After one lunch with an empty English text, a second one is refused with `IntegrityError`. |
| `Commands.LunchAt` | the/cook/menu.py:40 | The lunch a date names has that date and the least id among such lunches. There is none exactly when no lunch has that date. |
| `Commands.Remove` | the/cook/menu.py:35-47 | It fails with `NoSuchLunch` exactly when no lunch has the date. Otherwise it drops that lunch and exactly its subscriptions, and keeps every other row as it was. |
| `Commands.RemoveCascades` | the/cook/menu.py:41-46 | After removal no subscription names the lunch. Every other lunch keeps its row and its set of subscriptions. |
| `Commands.RemovePreserves` | the/cook/menu.py:41-47 | Removal keeps the tables well formed: no subscription is left dangling. |
| `Commands.AddThenRemove` | the/cook/menu.py:24-47 | Removing by date right after adding on a free date gives back the database as it was, apart from the registered user. |
| `Commands.SubscriptionOf` | the/cook/menu.py:55-58 | The subscription found is one of that user to that lunch, with the least row id among them. There is none exactly when the user has none for it. |
| `Commands.Subscribe` | the/cook/menu.py:49-67 | It fails exactly when the user step fails, with that step's error, or no lunch has the date, with `NoSuchLunch`. When the user already holds a subscription to that lunch, nothing changes and the value is `Existing` with its id, standing for the "already subscribed" message (the command returns nothing). Otherwise exactly one subscription is added, built from that lunch, the user, the persons count and the instant, under a fresh id, and the value is `Created` with that id. |
| `Commands.CreatedSubscriptionIsLinked` | the/cook/models.py:115-122 | A new subscription names the stored lunch on the date and the current user. It keeps the persons count and the instant. |
| `Commands.SubscribePreserves` | the/cook/menu.py:59-63 | Subscribing keeps the tables well formed, in particular one subscription per (lunch, user) pair. |
| `Commands.SubscribeIdempotent` | the/cook/menu.py:55-67 | A second subscription by the same user to the same date returns the first one and changes nothing. |
| `Commands.SubscribeCounts` | the/cook/menu.py:59-63 | A new subscription raises its lunch's count by one and no other lunch's count. Finding an existing one changes no count. |
| `Commands.ListEntries` | the/cook/menu.py:69-84 | Only stored lunches are listed, each with its own row and a date inside the range. |
| `Commands.ListedIff` | the/cook/menu.py:76-81 | A lunch is listed exactly when its date is inside the range, both ends included. Its entry counts the subscriptions that name it. |
| `Commands.SingleDayRange` | the/cook/menu.py:76-79 | A range whose two ends are the same day lists exactly the lunches of that day. |
| `Commands.OpenRangeListsAll` | the/cook/menu.py:74-79 | The range `..` lists every lunch of the database. |
| `Commands.AddedIsListed` | the/cook/menu.py:76-81 | A lunch just added on a date inside the range is listed with no subscribers. |
| `Commands.RemovedIsNotListed` | the/cook/menu.py:40-47 | A removed lunch is not listed for any range. |

## Left out

- `validate_email` is a single call to `email.utils.parseaddr`, a library whose behaviour is not part of this model.
- The database engine, session, `create` and `connect` are replaced by the `Db` value. A command's result is the committed state.
- Foreign keys are not enforced by the embedded database. `Linked` holds because the commands only ever link stored rows, not because the database checks it.
- Column widths `String(16)` and `String(128)` are not modelled. The embedded database does not enforce them.
- The UTF-8 decoding of the menu texts is not modelled. Menu texts are kept as the characters given.
- `backquote`, `os.getuid` and `getpass.getuser` run commands or query the system. Their results are inputs:
  - the `Identity` value;
  - the `tel` output as `Option<string>`, where None means the command cannot be started.
- The instant from `datetime.datetime.now()` is an opaque integer parameter.
- Everything printed, and the `repr` texts, are left out. This includes the `--long` listing of subscriptions.
- The `name_and_email` call in the "already subscribed" message is left out. It can raise, but it happens after every database change.
- Commands.ListEntries: the lunches are returned as a map keyed by row id, so the order the query prints them in is not modelled.
- Schema.ValidateDate: `dd.mm.yy` yields a `datetime` at midnight in the code (schema.py:40-41), and the model keeps only its date part. That is what `add` stores in the `Date` column. As a query parameter the value may keep its time (menu.py:40, 54 and 76-79). SQLAlchemy types a compared value by its Python type, so a `datetime` would be bound as text such as `2014-04-28 00:00:00.000000` and compared against the stored `2014-04-28`. If so:
  - `remove` and `subscribe` given a `dd.mm.yy` date find no lunch;
  - a `dd.mm.yy..` range leaves out its first day;
  - a `..dd.mm.yy` range still includes its last day.

  The model treats both forms as the same date. This depends on library code that is not part of this model. The open ends `datetime.min` and `datetime.max` are bound the same way, which only matters for a lunch on 1 January of year 1.
- The persons count is stored as given. Its check `n > 0` belongs to the command-line layer.
- `sendmail.py`, the command-line scripts and `setup.py` are not part of this model.
- The `next`/`tomorrow`/weekday keywords and the cutoff-time rules do not appear in the modelled code and are not modelled.

=== FILE: commands.dfy ===
/** The lunch commands: find or register the person running the command, add
    a lunch, remove one with its subscriptions, subscribe to one, and list the
    lunches of a date range. Each command maps the database as committed
    before it to the database as committed after it. */
module Commands {
  import opened Results
  import opened Dates
  import opened Schema
  import opened RowIds
  import opened Models

  /** What the operating system says about the person running a command: the
      numeric uid, the login name, and what `id -u <login>` prints (None when
      that is not a number). */
  datatype Identity = Identity(uid: int, login: string, idOfLogin: Option<int>)

  /** A command's effect: the database as committed when the command stops,
      and its value or the error that stopped it. */
  datatype Step<T> = Step(db: Db, result: Result<T>)

  // ---------------------------------------------------------------------
  // The current user

  /** The user whose id is the uid, or else a new user built from the login and
      committed at once. The commit fails when the new user's id or name is
      already stored. */
  function GetCurrentUser(db: Db, who: Identity): (s: Step<User>)
    ensures who.uid in db.users ==> s == Step(db, Ok(db.users[who.uid]))
    ensures s.result.Err? <==>
              who.uid !in db.users
              && (who.idOfLogin.None? || who.idOfLogin.value in db.users || NameTaken(db, who.login))
    ensures s.result.Err? ==> s.db == db && s.result.error in {UnknownLogin, IntegrityError}
    ensures s.result.Ok? && UsersKeyed(db) ==>
              s.result.value.id in s.db.users && s.db.users[s.result.value.id] == s.result.value
    ensures s.db.lunches == db.lunches && s.db.subscriptions == db.subscriptions
    ensures s.db != db ==>
              && who.uid !in db.users
              && s.result == Ok(User(who.idOfLogin.value, who.login))
              && s.result.value.id !in db.users
              && s.db.users == db.users[s.result.value.id := s.result.value]
    ensures who.uid !in db.users && s.result.Ok? ==>
              && s.result == Ok(User(who.idOfLogin.value, who.login))
              && s.db.users == db.users[who.idOfLogin.value := s.result.value]
  {
    if who.uid in db.users then Step(db, Ok(db.users[who.uid]))
    else
      match NewUser(who.uid, who.login, who.idOfLogin)
      case Err(e) => Step(db, Err(e))
      case Ok(u) =>
        if u.id in db.users || NameTaken(db, u.name) then Step(db, Err(IntegrityError))
        else Step(db.(users := db.users[u.id := u]), Ok(u))
  }

  /** Registering the current user keeps the database well formed. */
  lemma GetCurrentUserPreserves(db: Db, who: Identity)
    requires WellFormed(db)
    ensures WellFormed(GetCurrentUser(db, who).db)
  {
    var s := GetCurrentUser(db, who);
    if s.db != db {
      var u := s.result.value;
      assert forall a :: a in db.users ==> db.users[a].name != u.name;
      assert UniqueNames(s.db);
    }
  }

  /** When the login's id is the uid, a second call finds the user the first
      call registered and changes nothing. */
  lemma GetCurrentUserIdempotent(db: Db, who: Identity)
    requires who.idOfLogin == Some(who.uid)
    requires GetCurrentUser(db, who).result.Ok?
    ensures var s := GetCurrentUser(db, who);
            GetCurrentUser(s.db, who) == s
  {
  }

  /** When `id -u <login>` names another id than the uid, the user is stored
      under that other id; the next command looks for the uid again, tries to
      store the same user a second time, and fails. */
  lemma GetCurrentUserIdMismatch(db: Db, who: Identity)
    requires who.idOfLogin.Some? && who.idOfLogin.value != who.uid
    requires who.uid !in db.users
    requires GetCurrentUser(db, who).result.Ok?
    ensures var s := GetCurrentUser(db, who);
            GetCurrentUser(s.db, who) == Step(s.db, Err(IntegrityError))
  {
    var s := GetCurrentUser(db, who);
    assert s.db.users[who.idOfLogin.value].name == who.login;
  }

  // ---------------------------------------------------------------------
  // add

  /** Adds a lunch on `date` with `menu`, created by the current user. The
      command itself returns nothing and only prints the new lunch; the value
      here is the new lunch's row id, standing for that message. The commit
      fails when either menu text is already stored; the date may repeat. */
  function Add(db: Db, who: Identity, date: Date, menu: Menu): (s: Step<int>)
    ensures var cur := GetCurrentUser(db, who);
            s.result.Ok? <==> cur.result.Ok? && !MenuTaken(db, menu.french, menu.english)
    ensures var cur := GetCurrentUser(db, who);
            s.result.Err? ==> s.db == cur.db
    ensures var cur := GetCurrentUser(db, who);
            cur.result.Ok? && s.result.Err? ==> s.result.error == IntegrityError
    ensures var cur := GetCurrentUser(db, who);
            cur.result.Err? ==> s.result == Err(cur.result.error)
    ensures var cur := GetCurrentUser(db, who);
            s.result.Ok? ==>
              && s.result.value !in db.lunches
              && s.db == cur.db.(lunches := cur.db.lunches[s.result.value := NewLunch(date, menu, cur.result.value)])
  {
    var cur := GetCurrentUser(db, who);
    match cur.result
    case Err(e) => Step(cur.db, Err(e))
    case Ok(u) =>
      if MenuTaken(cur.db, menu.french, menu.english) then Step(cur.db, Err(IntegrityError))
      else
        var k := NextRowId(cur.db.lunches.Keys);
        Step(cur.db.(lunches := cur.db.lunches[k := NewLunch(date, menu, u)]), Ok(k))
  }

  /** A successful `add` stores exactly one more lunch, holding the date, both
      menu texts and the current user's id, and that user is stored. */
  lemma AddStoresConstructedLunch(db: Db, who: Identity, date: Date, menu: Menu)
    requires UsersKeyed(db)
    requires Add(db, who, date, menu).result.Ok?
    ensures var s := Add(db, who, date, menu);
            var l := s.db.lunches[s.result.value];
            && |s.db.lunches| == |db.lunches| + 1
            && l.date == date && l.french == menu.french && l.english == menu.english
            && l.userId in s.db.users
            && (who.uid in db.users ==> l.userId == who.uid)
            && (who.uid !in db.users ==> s.db.users[l.userId].name == who.login)
  {
    var s := Add(db, who, date, menu);
    assert s.db.lunches.Keys == db.lunches.Keys + {s.result.value};
  }

  /** Adding a lunch on a valid date keeps the database well formed. */
  lemma AddPreserves(db: Db, who: Identity, date: Date, menu: Menu)
    requires WellFormed(db) && date.Valid()
    ensures WellFormed(Add(db, who, date, menu).db)
  {
    GetCurrentUserPreserves(db, who);
    var s := Add(db, who, date, menu);
    if s.result.Ok? {
      var k := s.result.value;
      var l := s.db.lunches[k];
      assert forall a :: a in db.lunches ==> db.lunches[a].french != l.french && db.lunches[a].english != l.english;
      assert UniqueMenus(s.db);
    }
  }

  /** Nothing checks the date: two lunches with different menus can be added
      for the same day. */
  lemma SameDateTwice(db: Db, who: Identity, date: Date, m1: Menu, m2: Menu)
    requires WellFormed(db)
    requires who.uid in db.users
    requires !MenuTaken(db, m1.french, m1.english) && !MenuTaken(db, m2.french, m2.english)
    requires m1.french != m2.french && m1.english != m2.english
    ensures var s1 := Add(db, who, date, m1);
            var s2 := Add(s1.db, who, date, m2);
            && s1.result.Ok? && s2.result.Ok?
            && s1.result.value != s2.result.value
            && s2.db.lunches[s1.result.value].date == date
            && s2.db.lunches[s2.result.value].date == date
  {
    var s1 := Add(db, who, date, m1);
    assert !MenuTaken(s1.db, m2.french, m2.english);
  }

  /** Every menu without an English part stores the empty English text, so a
      second such menu cannot be added. */
  lemma TwoFrenchOnlyMenus(db: Db, who: Identity, d1: Date, d2: Date, m1: Menu, m2: Menu)
    requires m1.english == "" && m2.english == ""
    requires Add(db, who, d1, m1).result.Ok?
    ensures var s1 := Add(db, who, d1, m1);
            Add(s1.db, who, d2, m2) == Step(GetCurrentUser(s1.db, who).db, Err(IntegrityError))
  {
    var s1 := Add(db, who, d1, m1);
    var k := s1.result.value;
    if GetCurrentUser(s1.db, who).result.Ok? {
      assert s1.db.lunches[k].english == m2.english;
    } else {
      assert who.idOfLogin.value in s1.db.users;
    }
  }

  // ---------------------------------------------------------------------
  // remove

  /** The row id the lunch query `date == d` meets first: the least row id among
      the lunches on that date. */
  function LunchAt(db: Db, date: Date): (r: Option<int>)
    ensures r.None? <==> forall k :: k in db.lunches ==> db.lunches[k].date != date
    ensures r.Some? ==> r.value in db.lunches && db.lunches[r.value].date == date
    ensures r.Some? ==> forall k :: k in db.lunches && db.lunches[k].date == date ==> r.value <= k
  {
    var ids := set k | k in db.lunches && db.lunches[k].date == date;
    assert forall k :: k in db.lunches && db.lunches[k].date == date ==> k in ids;
    if ids == {} then None else Some(Least(ids))
  }

  /** The row ids of the subscriptions to one lunch. */
  function SubscriptionsOf(db: Db, lunchId: int): set<int> {
    set k | k in db.subscriptions && db.subscriptions[k].lunchId == lunchId
  }

  /** Which lunch a date names depends on the lunch table alone. */
  lemma LunchAtFrame(a: Db, b: Db, date: Date)
    requires a.lunches == b.lunches
    ensures LunchAt(a, date) == LunchAt(b, date)
  {
    assert (set k | k in a.lunches && a.lunches[k].date == date) == (set k | k in b.lunches && b.lunches[k].date == date);
  }

  /** Storing subscription `sub` under a fresh row id `k` adds `k` to the
      subscriptions of `sub`'s lunch and to no other lunch's. */
  lemma InsertSubscription(db: Db, k: int, sub: Subscription)
    requires k !in db.subscriptions
    ensures var after := db.(subscriptions := db.subscriptions[k := sub]);
            && SubscriptionsOf(after, sub.lunchId) == SubscriptionsOf(db, sub.lunchId) + {k}
            && forall other :: other != sub.lunchId ==> SubscriptionsOf(after, other) == SubscriptionsOf(db, other)
  {
  }

  /** Removes the first lunch on `date` and every subscription to it. */
  function Remove(db: Db, date: Date): (r: Result<Db>)
    ensures r.Err? <==> forall k :: k in db.lunches ==> db.lunches[k].date != date
    ensures r.Err? ==> r.error == NoSuchLunch
    ensures r.Ok? ==>
              && r.value.users == db.users
              && r.value.lunches == db.lunches - {LunchAt(db, date).value}
              && r.value.subscriptions.Keys == db.subscriptions.Keys - SubscriptionsOf(db, LunchAt(db, date).value)
              && forall k :: k in r.value.subscriptions ==> r.value.subscriptions[k] == db.subscriptions[k]
  {
    match LunchAt(db, date)
    case None => Err(NoSuchLunch)
    case Some(id) =>
      var kept := map k | k in db.subscriptions && db.subscriptions[k].lunchId != id :: db.subscriptions[k];
      Ok(Db(db.users, db.lunches - {id}, kept))
  }

  /** After `remove`, no subscription names the removed lunch, and every other
      lunch keeps its row and its subscriptions. */
  lemma RemoveCascades(db: Db, date: Date)
    requires Remove(db, date).Ok?
    ensures var id := LunchAt(db, date).value;
            var after := Remove(db, date).value;
            && id !in after.lunches
            && SubscriptionsOf(after, id) == {}
            && forall k :: k in after.lunches ==>
                 after.lunches[k] == db.lunches[k] && SubscriptionsOf(after, k) == SubscriptionsOf(db, k)
  {
    var id := LunchAt(db, date).value;
    var after := Remove(db, date).value;
    forall k | k in after.lunches
      ensures SubscriptionsOf(after, k) == SubscriptionsOf(db, k)
    {
      assert k != id;
    }
  }

  /** Removing a lunch keeps the database well formed. */
  lemma RemovePreserves(db: Db, date: Date)
    requires WellFormed(db) && Remove(db, date).Ok?
    ensures WellFormed(Remove(db, date).value)
  {
    var id := LunchAt(db, date).value;
    var after := Remove(db, date).value;
    forall k | k in after.subscriptions
      ensures after.subscriptions[k].lunchId in after.lunches
    {
      assert k !in SubscriptionsOf(db, id);
    }
  }

  /** `remove` undoes an `add` on a date that had no lunch: only the user the
      `add` may have registered stays. */
  lemma AddThenRemove(db: Db, who: Identity, date: Date, menu: Menu)
    requires Linked(db)
    requires forall k :: k in db.lunches ==> db.lunches[k].date != date
    requires Add(db, who, date, menu).result.Ok?
    ensures Remove(Add(db, who, date, menu).db, date) == Ok(GetCurrentUser(db, who).db)
  {
    var cur := GetCurrentUser(db, who);
    var s := Add(db, who, date, menu);
    var k := s.result.value;
    var at := LunchAt(s.db, date);
    assert s.db.lunches[k].date == date;
    assert at.value in db.lunches || at.value == k;
    assert forall j :: j in s.db.subscriptions ==> s.db.subscriptions[j].lunchId != k;
    assert SubscriptionsOf(s.db, k) == {};
    var after := Remove(s.db, date).value;
    assert after.lunches == cur.db.lunches;
    assert after.subscriptions == cur.db.subscriptions;
  }

  // ---------------------------------------------------------------------
  // subscribe

  /** How a `subscribe` ended: a new subscription was stored, or the user
      already held one for that lunch. The command returns nothing; this value
      stands for which of its two messages it prints. */
  datatype Subscribed = Created(id: int) | Existing(id: int)

  /** The first subscription of `userId` to `lunchId`, if any: the least row
      id among them. */
  function SubscriptionOf(db: Db, lunchId: int, userId: int): (r: Option<int>)
    ensures r.None? <==>
              forall k :: k in SubscriptionsOf(db, lunchId) ==> db.subscriptions[k].userId != userId
    ensures r.Some? ==>
              && r.value in SubscriptionsOf(db, lunchId)
              && db.subscriptions[r.value].userId == userId
    ensures r.Some? ==>
              forall k :: k in SubscriptionsOf(db, lunchId) && db.subscriptions[k].userId == userId ==> r.value <= k
  {
    var ids := set k | k in SubscriptionsOf(db, lunchId) && db.subscriptions[k].userId == userId;
    assert forall k :: k in SubscriptionsOf(db, lunchId) && db.subscriptions[k].userId == userId ==> k in ids;
    if ids == {} then None else Some(Least(ids))
  }

  /** Subscribes the current user, for `persons` persons, to the first lunch on
      `date`; `now` is the instant recorded with a new subscription. */
  function Subscribe(db: Db, who: Identity, date: Date, persons: int, now: int): (s: Step<Subscribed>)
    ensures var cur := GetCurrentUser(db, who);
            s.result.Err? <==> cur.result.Err? || LunchAt(db, date).None?
    ensures var cur := GetCurrentUser(db, who);
            s.result.Err? ==> s.db == cur.db
    ensures var cur := GetCurrentUser(db, who);
            cur.result.Ok? && s.result.Err? ==> s.result.error == NoSuchLunch
    ensures var cur := GetCurrentUser(db, who);
            cur.result.Err? ==> s.result == Err(cur.result.error)
    ensures var cur := GetCurrentUser(db, who);
            s.result.Ok? && s.result.value.Existing? ==>
              && s.db == cur.db
              && s.result.value.id in SubscriptionsOf(db, LunchAt(db, date).value)
              && db.subscriptions[s.result.value.id].userId == cur.result.value.id
    ensures var cur := GetCurrentUser(db, who);
            s.result.Ok? && s.result.value.Created? ==>
              && s.result.value.id !in db.subscriptions
              && SubscriptionOf(db, LunchAt(db, date).value, cur.result.value.id).None?
              && s.db == cur.db.(subscriptions := cur.db.subscriptions[
                   s.result.value.id := NewSubscription(LunchAt(db, date).value, cur.result.value, persons, now)])
  {
    var cur := GetCurrentUser(db, who);
    match cur.result
    case Err(e) => Step(cur.db, Err(e))
    case Ok(u) =>
      match LunchAt(cur.db, date)
      case None => Step(cur.db, Err(NoSuchLunch))
      case Some(lunchId) =>
        match SubscriptionOf(cur.db, lunchId, u.id)
        case Some(k) => Step(cur.db, Ok(Existing(k)))
        case None =>
          var k := NextRowId(cur.db.subscriptions.Keys);
          Step(cur.db.(subscriptions := cur.db.subscriptions[k := NewSubscription(lunchId, u, persons, now)]), Ok(Created(k)))
  }

  /** Subscribing keeps the database well formed: in particular a user never
      holds two subscriptions to one lunch. */
  lemma SubscribePreserves(db: Db, who: Identity, date: Date, persons: int, now: int)
    requires WellFormed(db)
    ensures WellFormed(Subscribe(db, who, date, persons, now).db)
  {
    GetCurrentUserPreserves(db, who);
    var s := Subscribe(db, who, date, persons, now);
    if s.result.Ok? && s.result.value.Created? {
      var cur := GetCurrentUser(db, who);
      var k := s.result.value.id;
      var sub := s.db.subscriptions[k];
      assert SubscriptionOf(cur.db, sub.lunchId, sub.userId).None?;
      FreshPair(cur.db, k, sub);
    }
  }

  /** Storing a subscription for a pair that holds none keeps one subscription
      per pair. */
  lemma FreshPair(db: Db, k: int, sub: Subscription)
    requires OnePerPair(db) && k !in db.subscriptions
    requires forall j :: j in SubscriptionsOf(db, sub.lunchId) ==> db.subscriptions[j].userId != sub.userId
    ensures OnePerPair(db.(subscriptions := db.subscriptions[k := sub]))
  {
    assert forall a :: a in db.subscriptions && db.subscriptions[a].lunchId == sub.lunchId ==>
      a in SubscriptionsOf(db, sub.lunchId);
  }

  /** A second `subscribe` by the same user to the same date finds the first
      subscription and changes nothing. */
  lemma SubscribeIdempotent(db: Db, who: Identity, date: Date, p1: int, p2: int, t1: int, t2: int)
    requires who.uid in db.users || who.idOfLogin == Some(who.uid)
    requires Subscribe(db, who, date, p1, t1).result.Ok?
    ensures var s1 := Subscribe(db, who, date, p1, t1);
            var s2 := Subscribe(s1.db, who, date, p2, t2);
            s2.db == s1.db && s2.result.Ok? && s2.result.value.Existing?
            && s2.result.value.id == s1.result.value.id
  {
    var cur := GetCurrentUser(db, who);
    var s1 := Subscribe(db, who, date, p1, t1);
    assert GetCurrentUser(s1.db, who) == Step(s1.db, cur.result);
    if s1.result.value.Created? {
      var lunchId := LunchAt(db, date).value;
      var u := cur.result.value;
      var k := s1.result.value.id;
      LunchAtFrame(s1.db, db, date);
      LunchAtFrame(cur.db, db, date);
      InsertSubscription(cur.db, k, s1.db.subscriptions[k]);
      var ids := set j | j in SubscriptionsOf(s1.db, lunchId) && s1.db.subscriptions[j].userId == u.id;
      assert ids == {k};
    }
  }

  /** A new subscription names the lunch on the date and the current user,
      both stored, and keeps the persons count and the instant it was given. */
  lemma CreatedSubscriptionIsLinked(db: Db, who: Identity, date: Date, persons: int, now: int)
    requires UsersKeyed(db)
    requires Subscribe(db, who, date, persons, now).result.Ok?
    requires Subscribe(db, who, date, persons, now).result.value.Created?
    ensures var s := Subscribe(db, who, date, persons, now);
            var sub := s.db.subscriptions[s.result.value.id];
            && sub.lunchId in s.db.lunches && s.db.lunches[sub.lunchId].date == date
            && sub.userId in s.db.users
            && (who.uid in db.users ==> sub.userId == who.uid)
            && (who.uid !in db.users ==> s.db.users[sub.userId].name == who.login)
            && sub.persons == persons && sub.made == now
  {
  }

  /** The number of subscriptions to a lunch, as `list` reports it. */
  function SubscriberCount(db: Db, lunchId: int): nat {
    |SubscriptionsOf(db, lunchId)|
  }

  /** A new subscription adds one to its lunch's count and leaves every other
      lunch's count alone; finding an existing one changes no count. */
  lemma SubscribeCounts(db: Db, who: Identity, date: Date, persons: int, now: int, other: int)
    requires Subscribe(db, who, date, persons, now).result.Ok?
    ensures var s := Subscribe(db, who, date, persons, now);
            var lunchId := LunchAt(db, date).value;
            && (s.result.value.Created? ==> SubscriberCount(s.db, lunchId) == SubscriberCount(db, lunchId) + 1)
            && (s.result.value.Existing? ==> SubscriberCount(s.db, lunchId) == SubscriberCount(db, lunchId))
            && (other != lunchId ==> SubscriberCount(s.db, other) == SubscriberCount(db, other))
  {
    var s := Subscribe(db, who, date, persons, now);
    var cur := GetCurrentUser(db, who);
    if s.result.value.Created? {
      var k := s.result.value.id;
      InsertSubscription(cur.db, k, s.db.subscriptions[k]);
      assert SubscriptionsOf(cur.db, other) == SubscriptionsOf(db, other);
    }
  }

  // ---------------------------------------------------------------------
  // list

  /** A lunch as `list` prints it: the row and its number of subscriptions. */
  datatype Entry = Entry(lunch: Lunch, subscribers: nat)

  /** `lo <= d <= hi`, both ends included. */
  predicate InRange(d: Date, lo: Date, hi: Date) {
    NotAfter(lo, d) && NotAfter(d, hi)
  }

  /** The lunches dated from `lo` to `hi`, keyed by row id, with their
      subscription counts. */
  function ListEntries(db: Db, lo: Date, hi: Date): (r: map<int, Entry>)
    ensures r.Keys <= db.lunches.Keys
    ensures forall k :: k in r ==> r[k].lunch == db.lunches[k] && InRange(r[k].lunch.date, lo, hi)
  {
    map k | k in db.lunches && InRange(db.lunches[k].date, lo, hi) :: Entry(db.lunches[k], SubscriberCount(db, k))
  }

  /** A lunch is listed exactly when its date is in the range, and its entry
      counts the subscriptions that name it. */
  lemma ListedIff(db: Db, lo: Date, hi: Date, k: int)
    ensures k in ListEntries(db, lo, hi) <==> k in db.lunches && InRange(db.lunches[k].date, lo, hi)
    ensures k in ListEntries(db, lo, hi) ==>
              ListEntries(db, lo, hi)[k].subscribers == |SubscriptionsOf(db, k)|
  {
  }

  /** A range whose two ends are the same day, such as `today..today`, lists
      exactly the lunches of that day. */
  lemma SingleDayRange(db: Db, d: Date, k: int)
    ensures k in ListEntries(db, d, d) <==> k in db.lunches && db.lunches[k].date == d
  {
    if k in db.lunches {
      NotAfterTotalOrder(d, db.lunches[k].date, d);
    }
  }

  /** The open range `..` lists every lunch of a well-formed database. */
  lemma OpenRangeListsAll(db: Db, today: Date)
    requires today.Valid() && DatesValid(db)
    ensures ValidateRange("" + ".." + "", today) == Ok((MinDate, MaxDate))
    ensures ListEntries(db, MinDate, MaxDate).Keys == db.lunches.Keys
  {
    OpenRanges(today);
    forall k | k in db.lunches ensures k in ListEntries(db, MinDate, MaxDate) {
      SentinelsBound(db.lunches[k].date);
    }
  }

  /** A lunch just added, on a date inside the range, is listed with no
      subscribers. */
  lemma AddedIsListed(db: Db, who: Identity, date: Date, menu: Menu, lo: Date, hi: Date)
    requires Linked(db) && InRange(date, lo, hi)
    requires Add(db, who, date, menu).result.Ok?
    ensures var s := Add(db, who, date, menu);
            var k := s.result.value;
            k in ListEntries(s.db, lo, hi) && ListEntries(s.db, lo, hi)[k] == Entry(s.db.lunches[k], 0)
  {
    var s := Add(db, who, date, menu);
    var k := s.result.value;
    assert forall j :: j in s.db.subscriptions ==> s.db.subscriptions[j].lunchId != k;
    assert SubscriptionsOf(s.db, k) == {};
  }

  /** A removed lunch is no longer listed, whatever the range. */
  lemma RemovedIsNotListed(db: Db, date: Date, lo: Date, hi: Date)
    requires Remove(db, date).Ok?
    ensures LunchAt(db, date).value !in ListEntries(Remove(db, date).value, lo, hi)
  {
  }
}

=== FILE: dates.dfy ===
/** Calendar dates as Python's `datetime.date` knows them: proleptic
    Gregorian, years 1 to 9999. */
module Dates {
  import opened Results

  datatype Date = Date(year: int, month: int, day: int) {

    /** The fields name a day that `datetime.date` accepts. */
    predicate Valid() {
      1 <= year <= 9999 && 1 <= month <= 12 && 1 <= day <= DaysInMonth(year, month)
    }
  }

  predicate IsLeapYear(year: int) {
    year % 4 == 0 && (year % 100 != 0 || year % 400 == 0)
  }

  function DaysInMonth(year: int, month: int): (n: int)
    requires 1 <= month <= 12
    ensures 28 <= n <= 31
    ensures n == 29 <==> month == 2 && IsLeapYear(year)
  {
    if month == 2 then (if IsLeapYear(year) then 29 else 28)
    else if month == 4 || month == 6 || month == 9 || month == 11 then 30
    else 31
  }

  /** The date part of `datetime.min` and of `datetime.max`, the open ends of a range. */
  const MinDate := Date(1, 1, 1)
  const MaxDate := Date(9999, 12, 31)

  /** Chronological order: `a` is on or before `b`. */
  predicate NotAfter(a: Date, b: Date) {
    a.year < b.year
    || (a.year == b.year && a.month < b.month)
    || (a.year == b.year && a.month == b.month && a.day <= b.day)
  }

  /** Python's `date(year, month, day)`: raises ValueError unless the fields
      name a real day. */
  function MakeDate(year: int, month: int, day: int): (r: Result<Date>)
    ensures r.Ok? <==> Date(year, month, day).Valid()
    ensures r.Ok? ==> r.value == Date(year, month, day)
    ensures r.Err? ==> r.error == InvalidDate
  {
    var d := Date(year, month, day);
    if d.Valid() then Ok(d) else Err(InvalidDate)
  }

  /** Every valid date lies between the two sentinels, so an open-ended range
      covers it. */
  lemma SentinelsBound(d: Date)
    requires d.Valid()
    ensures NotAfter(MinDate, d) && NotAfter(d, MaxDate)
  {
  }

  /** `NotAfter` is a total order on dates. */
  lemma NotAfterTotalOrder(a: Date, b: Date, c: Date)
    ensures NotAfter(a, a)
    ensures NotAfter(a, b) && NotAfter(b, a) ==> a == b
    ensures NotAfter(a, b) && NotAfter(b, c) ==> NotAfter(a, c)
    ensures NotAfter(a, b) || NotAfter(b, a)
  {
  }

  /** February 29 exists only in leap years; in particular not in 1900. */
  lemma LeapDay(year: int)
    requires 1 <= year <= 9999
    ensures Date(year, 2, 29).Valid() <==> IsLeapYear(year)
    ensures !Date(1900, 2, 29).Valid()
  {
  }
}

=== FILE: models.dfy ===
/** The three tables of the lunch database (users, lunches, subscriptions),
    the record constructors, and the user helpers that build an e-mail
    address or read the office directory's `tel` output. */
module Models {
  import opened Results
  import opened Text
  import opened Dates
  import opened Schema

  // ---------------------------------------------------------------------
  // User

  /** A user of the office, keyed by the numeric system user id. */
  datatype User = User(id: int, name: string)

  /** The `User` constructor. Its `id` argument is ignored: the id is what
      `id -u <name>` prints (`idOfName`, None when that is not an integer). */
  function NewUser(id: int, name: string, idOfName: Option<int>): (r: Result<User>)
    ensures r.Ok? <==> idOfName.Some?
    ensures r.Ok? ==> r.value.name == name && r.value.id == idOfName.value
    ensures r.Err? ==> r.error == UnknownLogin
  {
    match idOfName
    case None => Err(UnknownLogin)
    case Some(n) => Ok(User(n, name))
  }

  /** Whatever id the caller passes, the user's id comes from the login lookup. */
  lemma NewUserIgnoresId(a: int, b: int, name: string, idOfName: Option<int>)
    ensures NewUser(a, name, idOfName) == NewUser(b, name, idOfName)
  {
  }

  const MailDomain := "idiap.ch"

  /** The user's e-mail address: the login name at the office domain. Only
      the one `@` before the domain is added to whatever the name holds. */
  function Email(u: User): (r: string)
    ensures Count(r, '@') == Count(u.name, '@') + 1
  {
    CountConcat(u.name, "@", '@');
    CountConcat(u.name + "@", MailDomain, '@');
    assert '@' !in MailDomain;
    u.name + "@" + MailDomain
  }

  /** An address built from an `@`-free name has exactly one `@`, with the
      name before it and the office domain after it. */
  lemma EmailParts(u: User)
    requires '@' !in u.name
    ensures Count(Email(u), '@') == 1
    ensures Split(Email(u), '@') == [u.name, MailDomain]
  {
    assert '@' !in MailDomain;
    SplitTwo(u.name, MailDomain, '@');
    assert u.name + ['@'] + MailDomain == Email(u);
  }

  /** Line 2 of the `tel` command's output (`output.split('\n')[1]`). */
  function SecondLine(output: string): (r: Result<string>)
    ensures r.Ok? <==> Count(output, '\n') >= 1
    ensures r.Err? ==> r.error == NoSecondLine
    ensures r.Ok? ==> '\n' !in r.value
  {
    var lines := Split(output, '\n');
    if |lines| < 2 then Err(NoSecondLine) else Ok(lines[1])
  }

  /** `line.rsplit(' ', 1)` unpacked into exactly two pieces. */
  function SplitLastSpace(line: string): (r: Result<(string, string)>)
    ensures r.Ok? <==> ' ' in line
    ensures r.Err? ==> r.error == NoSpace
    ensures r.Ok? ==> line == r.value.0 + " " + r.value.1 && ' ' !in r.value.1
  {
    match LastIndexOf(line, ' ')
    case None => Err(NoSpace)
    case Some(i) =>
      assert line == line[..i] + " " + line[i + 1..];
      Ok((line[..i], line[i + 1..]))
  }

  const PhonePrefix := "+41277217"

  /** The user's phone number: the office prefix followed by the last word of
      the directory line. `tel` is the output of `tel <name>`, None when the
      command cannot be started. */
  function Phone(tel: Option<string>): (r: Result<string>)
    ensures tel.None? ==> r == Ok(PhonePrefix + "XXX")
    ensures tel.Some? ==> r.Ok? == (Count(tel.value, '\n') >= 1 && ' ' in SecondLine(tel.value).value)
    ensures r.Err? ==> r.error in {NoSecondLine, NoSpace}
    ensures r.Ok? ==> |r.value| >= |PhonePrefix| && r.value[..|PhonePrefix|] == PhonePrefix
  {
    match tel
    case None => Ok(PhonePrefix + "XXX")
    case Some(output) =>
      var line :- SecondLine(output);
      var pieces :- SplitLastSpace(line);
      Ok(PhonePrefix + Strip(pieces.1))
  }

  /** The user's full name: the directory line without its last word. */
  function Fullname(tel: Option<string>): (r: Result<string>)
    ensures tel.None? ==> r == Ok("Joe Doe")
    ensures tel.Some? ==> r.Ok? == (Count(tel.value, '\n') >= 1 && ' ' in SecondLine(tel.value).value)
    ensures r.Err? ==> r.error in {NoSecondLine, NoSpace}
  {
    match tel
    case None => Ok("Joe Doe")
    case Some(output) =>
      var line :- SecondLine(output);
      var pieces :- SplitLastSpace(line);
      Ok(Strip(pieces.0))
  }

  /** The second line of `header NL line NL trailer` is `line`. */
  lemma SecondLineOf(header: string, line: string, trailer: string)
    requires '\n' !in header && '\n' !in line
    ensures SecondLine(header + "\n" + line + "\n" + trailer) == Ok(line)
  {
    var rest := line + ['\n'] + trailer;
    SplitCons(line, trailer, '\n');
    SplitCons(header, rest, '\n');
    NewlineAssoc(header, line, trailer);
  }

  /** Regroups a concatenation. Kept as a lemma of its own: stated inline,
      the regrouping sends the solver into the surrounding string facts. */
  lemma NewlineAssoc(header: string, line: string, trailer: string)
    ensures header + "\n" + line + "\n" + trailer == header + ['\n'] + (line + ['\n'] + trailer)
  {
  }

  /** The second line of `header NL line`, with no newline after it, is `line`. */
  lemma SecondLineLast(header: string, line: string)
    requires '\n' !in header && '\n' !in line
    ensures SecondLine(header + "\n" + line) == Ok(line)
  {
    SplitTwo(header, line, '\n');
    assert header + ['\n'] + line == header + "\n" + line;
  }

  /** `name number` splits at the space before the space-free `number`. */
  lemma LastSpaceOf(name: string, number: string)
    requires ' ' !in number
    ensures SplitLastSpace(name + " " + number) == Ok((name, number))
  {
    var line := name + " " + number;
    var i := LastIndexOf(line, ' ').value;
    assert line[|name|] == ' ';
    assert forall k :: |name| < k < |line| ==> line[k] != ' ' by {
      forall k | |name| < k < |line| ensures line[k] != ' ' {
        assert line[k] == number[k - |name| - 1];
      }
    }
    assert forall k :: i < k < |line| ==> line[k] != ' ' by {
      forall k | i < k < |line| ensures line[k] != ' ' {
        assert line[k] == line[i + 1..][k - i - 1];
      }
    }
    assert i == |name|;
    assert line[..i] == name && line[i + 1..] == number;
  }

  /** The directory answer `header NL name number NL trailer`, and the same
      answer without the final newline and trailer: either way the line read
      is `name number`, and it splits before the space-free `number`. */
  lemma DirectoryAnswer(header: string, name: string, number: string, trailer: string)
    returns (output: string, last: string)
    requires '\n' !in header && '\n' !in name && '\n' !in number
    requires ' ' !in number
    ensures output == header + "\n" + name + " " + number + "\n" + trailer
    ensures last == header + "\n" + name + " " + number
    ensures SecondLine(output) == Ok(name + " " + number)
    ensures SecondLine(last) == Ok(name + " " + number)
    ensures SplitLastSpace(name + " " + number) == Ok((name, number))
  {
    var line := name + " " + number;
    output := header + "\n" + name + " " + number + "\n" + trailer;
    last := header + "\n" + name + " " + number;
    assert '\n' !in line;
    assert output == header + "\n" + line + "\n" + trailer;
    assert last == header + "\n" + line;
    SecondLineOf(header, line, trailer);
    SecondLineLast(header, line);
    LastSpaceOf(name, number);
  }

  /** The full name read from such an answer is the name on the line with its
      surrounding whitespace removed, so the padding of a column-aligned line
      such as `Joe Doe    1234` is dropped. */
  lemma DirectoryFullname(header: string, name: string, number: string, trailer: string)
    requires '\n' !in header && '\n' !in name && '\n' !in number
    requires ' ' !in number
    ensures Fullname(Some(header + "\n" + name + " " + number + "\n" + trailer)) == Ok(Strip(name))
    ensures Fullname(Some(header + "\n" + name + " " + number)) == Ok(Strip(name))
  {
    var output, last := DirectoryAnswer(header, name, number, trailer);
  }

  /** The phone number read from such an answer is the office prefix followed
      by the number on the line with its surrounding whitespace removed. */
  lemma DirectoryPhone(header: string, name: string, number: string, trailer: string)
    requires '\n' !in header && '\n' !in name && '\n' !in number
    requires ' ' !in number
    ensures Phone(Some(header + "\n" + name + " " + number + "\n" + trailer)) == Ok(PhonePrefix + Strip(number))
    ensures Phone(Some(header + "\n" + name + " " + number)) == Ok(PhonePrefix + Strip(number))
  {
    var output, last := DirectoryAnswer(header, name, number, trailer);
  }

  /** `Full Name <login@domain>`, the form an e-mail client shows. */
  function NameAndEmail(u: User, tel: Option<string>): (r: Result<string>)
    ensures r.Ok? <==> Fullname(tel).Ok?
    ensures r.Ok? ==> r.value == Fullname(tel).value + " <" + Email(u) + ">"
  {
    var full :- Fullname(tel);
    Ok(full + " <" + Email(u) + ">")
  }

  lemma NoAngleInAddress(u: User)
    requires '<' !in u.name
    ensures '<' !in Email(u)
  {
    assert '<' !in MailDomain;
  }

  /** The display form splits back, at its one `<`, into the full name and the
      bracketed address. */
  lemma NameAndEmailParts(u: User, tel: Option<string>)
    requires Fullname(tel).Ok? && '<' !in Fullname(tel).value
    requires '<' !in u.name
    ensures Split(NameAndEmail(u, tel).value, '<') == [Fullname(tel).value + " ", Email(u) + ">"]
  {
    NoAngleInAddress(u);
    DisplaySplit(Fullname(tel).value, Email(u));
  }

  /** `full <addr>` splits at its one `<`. */
  lemma DisplaySplit(full: string, addr: string)
    requires '<' !in full && '<' !in addr
    ensures Split(full + " <" + addr + ">", '<') == [full + " ", addr + ">"]
  {
    var before := full + " ";
    var after := addr + ">";
    assert '<' !in before && '<' !in after;
    SplitTwo(before, after, '<');
    AngleAssoc(full, addr);
  }

  /** Regroups a concatenation. Kept as a lemma of its own: stated inline,
      the regrouping sends the solver into the surrounding string facts. */
  lemma AngleAssoc(full: string, addr: string)
    ensures (full + " ") + ['<'] + (addr + ">") == full + " <" + addr + ">"
  {
  }

  // ---------------------------------------------------------------------
  // Lunch and Subscription rows

  /** A lunch on a date, its menu in both languages, and the user who added it. */
  datatype Lunch = Lunch(date: Date, french: string, english: string, userId: int)

  /** The `Lunch` constructor: the menu pair is stored as French and English
      text, and the creator link is the user's id. */
  function NewLunch(date: Date, menu: Menu, user: User): (l: Lunch)
    ensures l.date == date && Menu(l.french, l.english) == menu && l.userId == user.id
  {
    Lunch(date, menu.french, menu.english, user.id)
  }

  /** One user's subscription, for a number of persons, to one lunch; `made`
      is the wall-clock instant it was taken, an opaque value here. */
  datatype Subscription = Subscription(lunchId: int, userId: int, persons: int, made: int)

  /** The `Subscription` constructor: links the lunch and the user by id. */
  function NewSubscription(lunchId: int, user: User, persons: int, now: int): (s: Subscription)
    ensures s.lunchId == lunchId && s.userId == user.id && s.persons == persons && s.made == now
  {
    Subscription(lunchId, user.id, persons, now)
  }

  // ---------------------------------------------------------------------
  // The database

  /** The three tables, each keyed by row id. */
  datatype Db = Db(users: map<int, User>, lunches: map<int, Lunch>, subscriptions: map<int, Subscription>)

  const EmptyDb := Db(map[], map[], map[])

  /** A user row is stored under its own id (the primary key). */
  predicate UsersKeyed(db: Db) {
    forall k :: k in db.users ==> db.users[k].id == k
  }

  /** The `name` column is unique. */
  predicate UniqueNames(db: Db) {
    forall a, b :: a in db.users && b in db.users && db.users[a].name == db.users[b].name ==> a == b
  }

  /** The `menu_french` and `menu_english` columns are each unique; the date is not. */
  predicate UniqueMenus(db: Db) {
    && (forall a, b :: a in db.lunches && b in db.lunches && db.lunches[a].french == db.lunches[b].french ==> a == b)
    && (forall a, b :: a in db.lunches && b in db.lunches && db.lunches[a].english == db.lunches[b].english ==> a == b)
  }

  /** Every foreign key names an existing row. */
  predicate Linked(db: Db) {
    && (forall k :: k in db.lunches ==> db.lunches[k].userId in db.users)
    && (forall k :: k in db.subscriptions ==>
          db.subscriptions[k].lunchId in db.lunches && db.subscriptions[k].userId in db.users)
  }

  /** A user holds at most one subscription per lunch. No column constraint
      says so; `subscribe` keeps it by looking for an existing one first. */
  predicate OnePerPair(db: Db) {
    forall a, b ::
      (a in db.subscriptions && b in db.subscriptions
       && db.subscriptions[a].lunchId == db.subscriptions[b].lunchId
       && db.subscriptions[a].userId == db.subscriptions[b].userId) ==> a == b
  }

  /** Every stored lunch date is a real calendar day. */
  predicate DatesValid(db: Db) {
    forall k :: k in db.lunches ==> db.lunches[k].date.Valid()
  }

  /** What the commands keep true of the tables: the declared key and unique
      columns, and the links, pairs and dates no constraint checks. */
  predicate WellFormed(db: Db) {
    UsersKeyed(db) && UniqueNames(db) && UniqueMenus(db) && Linked(db) && OnePerPair(db) && DatesValid(db)
  }

  /** Some user already has this name. */
  predicate NameTaken(db: Db, name: string) {
    exists k | k in db.users :: db.users[k].name == name
  }

  /** Some lunch already has this French or this English text. */
  predicate MenuTaken(db: Db, french: string, english: string) {
    exists k | k in db.lunches :: db.lunches[k].french == french || db.lunches[k].english == english
  }

  /** The freshly created database, with three empty tables, is well formed:
      the base case for the lemmas that each command keeps `WellFormed`. */
  lemma EmptyWellFormed()
    ensures WellFormed(EmptyDb)
  {
  }
}

=== FILE: results.dfy ===
/** Failure-compatible result types shared by the parsers and the bookkeeping
    operations. Every Python exception the modelled code can raise becomes an
    `Err` carrying the kind of failure. */
module Results {

  /** Why an operation failed. */
  datatype Error =
    | FormatMismatch      // strptime: the token does not match the format
    | InvalidDate         // date(): the fields do not name a calendar date
    | TooManyDots         // validate_date: three or more dots
    | NoRangeSeparator    // validate_range: no `..` in the token
    | TooManyParens       // validate_menu: unpacking `split('(')` fails
    | NoSuchLunch         // no lunch at the requested date (`None.id`)
    | IntegrityError      // a unique or primary-key column would repeat at commit
    | UnknownLogin        // `id -u <name>` did not print an integer
    | NoSecondLine        // the `tel` output has fewer than two lines
    | NoSpace             // the second `tel` line has no space to split at

  datatype Option<T> = None | Some(value: T)

  datatype Result<T> = Ok(value: T) | Err(error: Error) {

    predicate IsFailure() {
      Err?
    }

    function PropagateFailure<U>(): Result<U>
      requires Err?
    {
      Err(error)
    }

    function Extract(): T
      requires Ok?
    {
      value
    }
  }
}

=== FILE: rowids.dfy ===
/** Row identifiers of the embedded database. A table without AUTOINCREMENT
    gives a new row the identifier one above the largest in use (1 in an empty
    table), and a query without ORDER BY scans rows by ascending identifier. */
module RowIds {

  /** Some element of a non-empty set. */
  lemma Pick(s: set<int>) returns (x: int)
    requires s != {}
    ensures x in s
  {
    if forall y :: y !in s {
      assert false;
    }
    x :| x in s;
  }

  lemma {:induction false} HasGreatest(s: set<int>)
    requires s != {}
    ensures exists m :: m in s && forall k :: k in s ==> k <= m
    decreases s
  {
    var x := Pick(s);
    var rest := s - {x};
    if rest != {} {
      HasGreatest(rest);
      var m :| m in rest && forall k :: k in rest ==> k <= m;
      var g := if x <= m then m else x;
      forall k | k in s ensures k <= g {
        if k != x {
          assert k in rest;
        }
      }
      assert g in s;
    } else {
      assert s == {x};
    }
  }

  lemma {:induction false} HasLeast(s: set<int>)
    requires s != {}
    ensures exists m :: m in s && forall k :: k in s ==> m <= k
    decreases s
  {
    var x := Pick(s);
    var rest := s - {x};
    if rest != {} {
      HasLeast(rest);
      var m :| m in rest && forall k :: k in rest ==> m <= k;
      var l := if x <= m then x else m;
      forall k | k in s ensures l <= k {
        if k != x {
          assert k in rest;
        }
      }
      assert l in s;
    } else {
      assert s == {x};
    }
  }

  function Greatest(s: set<int>): (m: int)
    requires s != {}
    ensures m in s && forall k :: k in s ==> k <= m
  {
    HasGreatest(s);
    var m :| m in s && forall k :: k in s ==> k <= m;
    m
  }

  function Least(s: set<int>): (m: int)
    requires s != {}
    ensures m in s && forall k :: k in s ==> m <= k
  {
    HasLeast(s);
    var m :| m in s && forall k :: k in s ==> m <= k;
    m
  }

  /** The identifier the database gives the next inserted row. */
  function NextRowId(ids: set<int>): (r: int)
    ensures r !in ids
    ensures forall k :: k in ids ==> k < r
    ensures ids == {} ==> r == 1
  {
    if ids == {} then 1 else Greatest(ids) + 1
  }
}

=== FILE: schema.dfy ===
/** The command-line value parsers: a date token, a date range and a
    bilingual menu. The current date is a parameter, so every parser is a
    pure function of its input. */
module Schema {
  import opened Results
  import opened Text
  import opened Dates

  // ---------------------------------------------------------------------
  // strptime fields

  /** The value of two decimal digits. */
  function TwoDigits(s: string): (n: int)
    requires |s| == 2 && IsDigit(s[0]) && IsDigit(s[1])
    ensures 0 <= n <= 99
  {
    10 * DigitValue(s[0]) + DigitValue(s[1])
  }

  /** A field of strptime's `%d`, matched in full by one of the alternatives
      `3[01]`, `[12]\d`, `0[1-9]`, `[1-9]` or a space followed by `[1-9]`. */
  function DayField(s: string): (r: Option<int>)
    ensures r.Some? ==> 1 <= r.value <= 31
  {
    if |s| == 1 && IsDigit(s[0]) && s[0] != '0' then Some(DigitValue(s[0]))
    else if |s| == 2 && s[0] == ' ' && IsDigit(s[1]) && s[1] != '0' then Some(DigitValue(s[1]))
    else if |s| == 2 && IsDigit(s[0]) && IsDigit(s[1]) && 1 <= TwoDigits(s) <= 31 then Some(TwoDigits(s))
    else None
  }

  /** A field of strptime's `%m`: `1[0-2]`, `0[1-9]` or `[1-9]`. */
  function MonthField(s: string): (r: Option<int>)
    ensures r.Some? ==> 1 <= r.value <= 12
  {
    if |s| == 1 && IsDigit(s[0]) && s[0] != '0' then Some(DigitValue(s[0]))
    else if |s| == 2 && IsDigit(s[0]) && IsDigit(s[1]) && 1 <= TwoDigits(s) <= 12 then Some(TwoDigits(s))
    else None
  }

  /** strptime's pivot for `%y`: 00-68 is 2000-2068, 69-99 is 1969-1999. */
  function Century(yy: int): (year: int)
    requires 0 <= yy <= 99
    ensures 1969 <= year <= 2068 && year % 100 == yy
  {
    if yy <= 68 then 2000 + yy else 1900 + yy
  }

  /** A field of strptime's `%y`: exactly two digits. */
  function YearField(s: string): (r: Option<int>)
    ensures r.Some? ==> 1969 <= r.value <= 2068
  {
    if |s| == 2 && IsDigit(s[0]) && IsDigit(s[1]) then Some(Century(TwoDigits(s))) else None
  }

  // ---------------------------------------------------------------------
  // validate_date

  /** Parses `today` (any letter case, no dots), `dd`, `dd.mm` or `dd.mm.yy`.
      A missing month and year come from `today`; `dd.mm` must also be a real
      day of strptime's default year 1900. */
  function ValidateDate(o: string, today: Date): (r: Result<Date>)
    requires today.Valid()
    ensures r.Ok? ==> r.value.Valid()
    ensures Count(o, '.') == 0 && Lower(o) == "today" ==> r == Ok(today)
    ensures Count(o, '.') == 0 && Lower(o) != "today" && r.Ok? ==>
              r.value.year == today.year && r.value.month == today.month && DayField(o) == Some(r.value.day)
    ensures Count(o, '.') == 1 && r.Ok? ==>
              && r.value.year == today.year && Date(1900, r.value.month, r.value.day).Valid()
              && DayField(Split(o, '.')[0]) == Some(r.value.day)
              && MonthField(Split(o, '.')[1]) == Some(r.value.month)
    ensures Count(o, '.') == 2 && r.Ok? ==> 1969 <= r.value.year <= 2068
    ensures Count(o, '.') == 2 && r.Ok? ==>
              && DayField(Split(o, '.')[0]) == Some(r.value.day)
              && MonthField(Split(o, '.')[1]) == Some(r.value.month)
              && YearField(Split(o, '.')[2]) == Some(r.value.year)
    ensures Count(o, '.') >= 3 <==> r == Err(TooManyDots)
    ensures r.Err? ==> r.error.FormatMismatch? || r.error.InvalidDate? || r.error.TooManyDots?
  {
    var parts := Split(o, '.');
    if |parts| == 1 then
      if Lower(o) == "today" then Ok(today)
      else
        match DayField(o)
        case None => Err(FormatMismatch)
        case Some(d) =>
          var parsed :- MakeDate(1900, 1, d);
          MakeDate(today.year, today.month, parsed.day)
    else if |parts| == 2 then
      match (DayField(parts[0]), MonthField(parts[1]))
      case (Some(d), Some(m)) =>
        var parsed :- MakeDate(1900, m, d);
        MakeDate(today.year, parsed.month, parsed.day)
      case _ => Err(FormatMismatch)
    else if |parts| == 3 then
      match (DayField(parts[0]), MonthField(parts[1]), YearField(parts[2]))
      case (Some(d), Some(m), Some(y)) => MakeDate(y, m, d)
      case _ => Err(FormatMismatch)
    else
      Err(TooManyDots)
  }

  // Reference renderings of numbers, as a user would type them.

  /** `n` as two digits, zero-padded. */
  function Pad2(n: int): string
    requires 0 <= n <= 99
  {
    [DigitChar(n / 10), DigitChar(n % 10)]
  }

  /** `n` as a single digit. */
  function Digit1(n: int): string
    requires 0 <= n <= 9
  {
    [DigitChar(n)]
  }

  /** The `%d` field accepts exactly the day numbers 1-31 written with two
      digits, and 1-9 written with one digit or a space and one digit. */
  lemma DayFieldTokens(s: string, d: int)
    ensures DayField(s) == Some(d) <==>
              (1 <= d <= 31 && s == Pad2(d)) || (1 <= d <= 9 && (s == Digit1(d) || s == " " + Digit1(d)))
  {
    if 1 <= d <= 31 && s == Pad2(d) {
      assert TwoDigits(s) == d;
    }
    if DayField(s) == Some(d) && |s| == 2 && IsDigit(s[0]) {
      assert s == Pad2(d);
    }
  }

  /** The `%m` field accepts exactly the month numbers 1-12 written with two
      digits, and 1-9 written with one. */
  lemma MonthFieldTokens(s: string, m: int)
    ensures MonthField(s) == Some(m) <==>
              (1 <= m <= 12 && s == Pad2(m)) || (1 <= m <= 9 && s == Digit1(m))
  {
    if 1 <= m <= 12 && s == Pad2(m) {
      assert TwoDigits(s) == m;
    }
    if MonthField(s) == Some(m) && |s| == 2 {
      assert s == Pad2(m);
    }
  }

  /** `today` in any mix of letter cases is the current date. */
  lemma TodayInAnyCase(o: string, today: Date)
    requires today.Valid()
    requires Lower(o) == "today"
    ensures ValidateDate(o, today) == Ok(today)
  {
    forall i | 0 <= i < |o| ensures o[i] != '.' {
      assert LowerChar(o[i]) == "today"[i];
    }
    assert '.' !in o;
  }

  /** A day number alone names that day of the current month, and fails when
      the current month is too short. */
  lemma DayOfCurrentMonth(d: int, today: Date)
    requires today.Valid()
    requires 1 <= d <= 31
    ensures ValidateDate(Pad2(d), today) ==
              if d <= DaysInMonth(today.year, today.month) then Ok(Date(today.year, today.month, d))
              else Err(InvalidDate)
    ensures d <= 9 ==> ValidateDate(Digit1(d), today) == ValidateDate(Pad2(d), today)
    ensures d <= 9 ==> ValidateDate(" " + Digit1(d), today) == ValidateDate(Pad2(d), today)
  {
    DayFieldTokens(Pad2(d), d);
    DayToken(Pad2(d), today);
    if d <= 9 {
      DayFieldTokens(Digit1(d), d);
      DayToken(Digit1(d), today);
      DayFieldTokens(" " + Digit1(d), d);
      DayToken(" " + Digit1(d), today);
    }
  }

  /** A dot-free day field names that day of the current month, whichever of
      its spellings is used. */
  lemma DayToken(a: string, today: Date)
    requires today.Valid()
    requires '.' !in a && DayField(a).Some?
    ensures ValidateDate(a, today) == MakeDate(today.year, today.month, DayField(a).value)
  {
    assert |Lower(a)| == |a| <= 2;
  }

  /** Splitting `a.b` and `a.b.c` at their dots, for dot-free fields. */
  lemma SplitDots(a: string, b: string, c: string)
    requires '.' !in a && '.' !in b && '.' !in c
    ensures Split(a + "." + b + "." + c, '.') == [a, b, c]
  {
    var bc := b + "." + c;
    SplitDot(b, c);
    SplitCons(a, bc, '.');
    DotAssoc(a, b, c);
  }

  /** Regroups a concatenation. Kept as a lemma of its own: stated inline,
      the regrouping sends the solver into the surrounding string facts. */
  lemma DotAssoc(a: string, b: string, c: string)
    ensures a + "." + b + "." + c == a + ['.'] + (b + "." + c)
  {
  }

  lemma SplitDot(a: string, b: string)
    requires '.' !in a && '.' !in b
    ensures Split(a + "." + b, '.') == [a, b]
  {
    SplitCons(a, b, '.');
    SplitNone(b, '.');
    assert a + "." + b == a + ['.'] + b;
  }

  /** `a.b` with a day field `a` and a month field `b`. */
  lemma DayMonthToken(a: string, b: string, today: Date)
    requires today.Valid()
    requires '.' !in a && '.' !in b
    requires DayField(a).Some? && MonthField(b).Some?
    ensures var d, m := DayField(a).value, MonthField(b).value;
            ValidateDate(a + "." + b, today) ==
              if Date(1900, m, d).Valid() && Date(today.year, m, d).Valid() then Ok(Date(today.year, m, d))
              else Err(InvalidDate)
  {
    SplitDot(a, b);
    CountDots(a, b);
  }

  lemma CountDots(a: string, b: string)
    requires '.' !in a && '.' !in b
    ensures Count(a + "." + b, '.') == 1
  {
    CountConcat(a + ".", b, '.');
    CountConcat(a, ".", '.');
  }

  /** `dd.mm` names that day of the current year; it fails unless the day
      exists both in 1900 and in the current year. */
  lemma DayMonthOfCurrentYear(d: int, m: int, today: Date)
    requires today.Valid()
    requires 1 <= d <= 31 && 1 <= m <= 12
    ensures ValidateDate(Pad2(d) + "." + Pad2(m), today) ==
              if Date(1900, m, d).Valid() && Date(today.year, m, d).Valid() then Ok(Date(today.year, m, d))
              else Err(InvalidDate)
  {
    DayFieldTokens(Pad2(d), d);
    MonthFieldTokens(Pad2(m), m);
    DayMonthToken(Pad2(d), Pad2(m), today);
  }

  /** February 29 given as `dd.mm` is refused even in a leap year, because
      strptime checks it against 1900 first. */
  lemma LeapDayRefused(today: Date)
    requires today.Valid()
    ensures ValidateDate("29" + "." + "02", today) == Err(InvalidDate)
    ensures ValidateDate("29" + "." + "2", today) == Err(InvalidDate)
  {
    assert MonthField("02") == Some(2);
    assert MonthField("2") == Some(2);
    LeapDayAs("02", today);
    LeapDayAs("2", today);
  }

  /** `29.m` for any spelling `m` of February. */
  lemma LeapDayAs(m: string, today: Date)
    requires today.Valid()
    requires '.' !in m && MonthField(m) == Some(2)
    ensures ValidateDate("29" + "." + m, today) == Err(InvalidDate)
  {
    assert DayField("29") == Some(29);
    DayMonthToken("29", m, today);
  }

  /** `a.b.c` with day, month and year fields. */
  lemma DayMonthYearToken(a: string, b: string, c: string, today: Date)
    requires today.Valid()
    requires '.' !in a && '.' !in b && '.' !in c
    requires DayField(a).Some? && MonthField(b).Some? && YearField(c).Some?
    ensures ValidateDate(a + "." + b + "." + c, today) ==
              MakeDate(YearField(c).value, MonthField(b).value, DayField(a).value)
  {
    SplitDots(a, b, c);
  }

  /** `dd.mm.yy` names the day in the year strptime's pivot gives `yy`. */
  lemma FullDate(d: int, m: int, yy: int, today: Date)
    requires today.Valid()
    requires 1 <= d <= 31 && 1 <= m <= 12 && 0 <= yy <= 99
    ensures ValidateDate(Pad2(d) + "." + Pad2(m) + "." + Pad2(yy), today) == MakeDate(Century(yy), m, d)
  {
    DayFieldTokens(Pad2(d), d);
    MonthFieldTokens(Pad2(m), m);
    assert TwoDigits(Pad2(yy)) == yy;
    DayMonthYearToken(Pad2(d), Pad2(m), Pad2(yy), today);
  }

  /** The example `12.3.04` is 12 March 2004. */
  lemma TwelfthOfMarch2004(today: Date)
    requires today.Valid()
    ensures ValidateDate("12" + "." + "3" + "." + "04", today) == Ok(Date(2004, 3, 12))
  {
    assert DayField("12") == Some(12);
    assert MonthField("3") == Some(3);
    assert YearField("04") == Some(2004);
    DayMonthYearToken("12", "3", "04", today);
  }

  /** A year field that is not exactly two characters long is refused, as in `12.3.4`. */
  lemma ShortYearRefused(a: string, b: string, y: string, today: Date)
    requires today.Valid()
    requires '.' !in a && '.' !in b && '.' !in y
    requires |y| != 2
    ensures ValidateDate(a + "." + b + "." + y, today) == Err(FormatMismatch)
    ensures ValidateDate("12" + "." + "3" + "." + "4", today) == Err(FormatMismatch)
  {
    SplitDots(a, b, y);
    SplitDots("12", "3", "4");
  }

  // ---------------------------------------------------------------------
  // validate_range

  /** One side of a range: empty means the open end `sentinel`. */
  function Bound(side: string, sentinel: Date, today: Date): (r: Result<Date>)
    requires today.Valid()
    requires sentinel.Valid()
  {
    if side == [] then Ok(sentinel) else ValidateDate(side, today)
  }

  /** Parses `start..end`, split at the first `..`; an empty side is open. */
  function ValidateRange(o: string, today: Date): (r: Result<(Date, Date)>)
    requires today.Valid()
    ensures Find(o, "..").None? <==> r == Err(NoRangeSeparator)
    ensures r.Ok? ==> r.value.0.Valid() && r.value.1.Valid()
    ensures Find(o, "..").Some? ==>
              var i := Find(o, "..").value;
              && (r.Ok? <==> Bound(o[..i], MinDate, today).Ok? && Bound(o[i + 2..], MaxDate, today).Ok?)
              && (r.Ok? ==> r.value == (Bound(o[..i], MinDate, today).value, Bound(o[i + 2..], MaxDate, today).value))
  {
    match Find(o, "..")
    case None => Err(NoRangeSeparator)
    case Some(i) =>
      var start :- Bound(o[..i], MinDate, today);
      var end :- Bound(o[i + 2..], MaxDate, today);
      Ok((start, end))
  }

  /** A range written as `a..b`, where `a` neither contains `..` nor ends in a
      dot, is split into exactly `a` and `b`. */
  lemma RangeSides(a: string, b: string, today: Date)
    requires today.Valid()
    requires forall j: nat :: !OccursAt(a, "..", j)
    requires a == [] || a[|a| - 1] != '.'
    ensures var r := ValidateRange(a + ".." + b, today);
            && (r.Ok? <==> Bound(a, MinDate, today).Ok? && Bound(b, MaxDate, today).Ok?)
            && (r.Ok? ==> r.value == (Bound(a, MinDate, today).value, Bound(b, MaxDate, today).value))
  {
    var o := a + ".." + b;
    assert OccursAt(o, "..", |a|) by {
      assert o[|a|..|a| + 2] == "..";
    }
    forall j: nat | j < |a| ensures !OccursAt(o, "..", j) {
      NotBeforeSeparator(a, b, j);
    }
    var i := Find(o, "..").value;
    assert i == |a|;
    assert o[..i] == a;
    assert o[i + 2..] == b;
  }

  lemma NotBeforeSeparator(a: string, b: string, j: nat)
    requires forall j: nat :: !OccursAt(a, "..", j)
    requires a == [] || a[|a| - 1] != '.'
    requires j < |a|
    ensures !OccursAt(a + ".." + b, "..", j)
  {
    var o := a + ".." + b;
    if j + 2 <= |a| {
      assert o[j..j + 2] == a[j..j + 2];
      assert !OccursAt(a, "..", j);
    } else {
      assert o[j..j + 2][0] == a[j];
    }
  }

  lemma NoDotNoSeparator(a: string)
    requires '.' !in a
    ensures forall j: nat :: !OccursAt(a, "..", j)
  {
    forall j: nat | j + 2 <= |a| ensures !OccursAt(a, "..", j) {
      assert a[j..j + 2][0] == a[j];
    }
  }

  /** The open ranges of the documentation: `..`, `today..` and `..today`. */
  lemma OpenRanges(today: Date)
    requires today.Valid()
    ensures ValidateRange("" + ".." + "", today) == Ok((MinDate, MaxDate))
    ensures ValidateRange("today" + ".." + "", today) == Ok((today, MaxDate))
    ensures ValidateRange("" + ".." + "today", today) == Ok((MinDate, today))
  {
    NoDotNoSeparator("");
    NoDotNoSeparator("today");
    TodayInAnyCase("today", today);
    RangeSides("", "", today);
    RangeSides("today", "", today);
    RangeSides("", "today", today);
  }

  // ---------------------------------------------------------------------
  // validate_menu

  /** A menu in French with its English translation (empty when absent). */
  datatype Menu = Menu(french: string, english: string)

  /** Splits `french (english)` into its two languages. */
  function ValidateMenu(o: string): (r: Result<Menu>)
    ensures r.Err? <==> Count(o, '(') >= 2
    ensures r.Err? ==> r.error == TooManyParens
    ensures Count(o, '(') == 0 ==> r == Ok(Menu(o, ""))
    ensures Count(o, '(') == 1 ==> '(' !in r.value.french && '(' !in r.value.english
    ensures Count(o, '(') == 1 ==> Strip(r.value.french) == r.value.french && Strip(r.value.english) == r.value.english
  {
    if Count(o, '(') == 0 then Ok(Menu(o, ""))
    else
      var parts := Split(o, '(');
      if |parts| != 2 then Err(TooManyParens)
      else
        var french := Strip(parts[0]);
        var english := Strip(Trim(Strip(parts[1]), {')'}));
        NoParenAfterTrim(parts[0], Whitespace);
        NoParenAfterTrim(parts[1], Whitespace);
        NoParenAfterTrim(Strip(parts[1]), {')'});
        NoParenAfterTrim(Trim(Strip(parts[1]), {')'}), Whitespace);
        StripIdempotent(parts[0]);
        StripIdempotent(Trim(Strip(parts[1]), {')'}));
        Ok(Menu(french, english))
  }

  lemma NoParenAfterTrim(s: string, cs: set<char>)
    requires '(' !in s
    ensures '(' !in Trim(s, cs)
  {
    var lo := |s| - |TrimStart(s, cs)|;
    InSlice(s, lo, lo + |Trim(s, cs)|, '(');
  }

  /** Text with no parenthesis and no surrounding whitespace. */
  predicate PlainText(s: string) {
    '(' !in s && (s == [] || (s[0] !in Whitespace && s[|s| - 1] !in Whitespace))
  }

  /** `french (english)` splits at its one parenthesis. */
  lemma MenuSplit(french: string, english: string)
    requires '(' !in french && '(' !in english
    ensures Split(french + " (" + english + ")", '(') == [french + " ", english + ")"]
  {
    var before := french + " ";
    var after := english + ")";
    assert '(' !in before && '(' !in after;
    SplitTwo(before, after, '(');
    MenuText(french, english);
  }

  /** Regroups a concatenation. Kept as a lemma of its own: stated inline,
      the regrouping sends the solver into the surrounding string facts. */
  lemma MenuText(french: string, english: string)
    ensures (french + " ") + ['('] + (english + ")") == french + " (" + english + ")"
  {
  }

  /** The French side loses only the space before the parenthesis. */
  lemma FrenchSide(french: string)
    requires PlainText(french)
    ensures Strip(french + " ") == french
  {
    TrimPadded(french, " ", Whitespace);
  }

  /** The English side loses only the closing parenthesis. */
  lemma EnglishSide(english: string)
    requires PlainText(english)
    requires english == [] || (english[0] != ')' && english[|english| - 1] != ')')
    ensures Strip(Trim(Strip(english + ")"), {')'})) == english
  {
    var after := english + ")";
    assert after[0] !in Whitespace && after[|after| - 1] !in Whitespace;
    TrimTrimmed(after, Whitespace);
    assert Strip(after) == after;
    ClosingTrim(english);
    assert Trim(Strip(after), {')'}) == english;
    TrimTrimmed(english, Whitespace);
    assert Strip(english) == english;
  }

  lemma ClosingTrim(english: string)
    requires english == [] || (english[0] != ')' && english[|english| - 1] != ')')
    ensures Trim(english + ")", {')'}) == english
  {
    TrimPadded(english, ")", {')'});
  }

  /** Writing a menu as `french (english)` and parsing it gives the menu back,
      whenever the English text does not itself start or end with `)`. */
  lemma MenuRoundTrip(french: string, english: string)
    requires PlainText(french) && PlainText(english)
    requires english == [] || (english[0] != ')' && english[|english| - 1] != ')')
    ensures ValidateMenu(french + " (" + english + ")") == Ok(Menu(french, english))
  {
    MenuSplit(french, english);
    FrenchSide(french);
    EnglishSide(english);
  }

  /** A menu with one `(` is the stripped text before it, in French, and the
      text after it, stripped, without its closing `)` and stripped again, in
      English; nothing needs a space before the `(` or a `)` at the end. */
  lemma MenuSides(a: string, b: string)
    requires '(' !in a && '(' !in b
    ensures Count(a + "(" + b, '(') == 1
    ensures ValidateMenu(a + "(" + b) == Ok(Menu(Strip(a), Strip(Trim(Strip(b), {')'}))))
  {
    SplitTwo(a, b, '(');
    assert a + ['('] + b == a + "(" + b;
  }

  /** `MenuSides` for an input already known to be `a(b)`. */
  lemma MenuSidesAt(o: string, a: string, b: string)
    requires '(' !in a && '(' !in b && o == a + "(" + b
    ensures ValidateMenu(o) == Ok(Menu(Strip(a), Strip(Trim(Strip(b), {')'}))))
  {
    MenuSides(a, b);
  }

  /** No space is needed before the `(`: `french(english)` parses like
      `french (english)`. */
  lemma MenuWithoutSpace(french: string, english: string)
    requires PlainText(french) && PlainText(english)
    requires english == [] || (english[0] != ')' && english[|english| - 1] != ')')
    ensures ValidateMenu(french + "(" + english + ")") == Ok(Menu(french, english))
  {
    var o := french + "(" + english + ")";
    var closed := english + ")";
    assert '(' !in closed;
    assert o == french + "(" + closed by {
      ParenAssoc(french, english, ")");
    }
    assert Strip(french) == french by {
      TrimTrimmed(french, Whitespace);
    }
    assert Strip(Trim(Strip(closed), {')'})) == english by {
      EnglishSide(english);
    }
    MenuSidesAt(o, french, closed);
  }

  /** Regroups a concatenation. Kept as a lemma of its own: stated inline,
      the regrouping sends the solver into the surrounding string facts. */
  lemma ParenAssoc(a: string, b: string, close: string)
    ensures a + "(" + (b + close) == a + "(" + b + close
  {
  }

  /** Whitespace after the `)` is dropped: `french (english) ` parses like
      `french (english)`. */
  lemma MenuTrailingSpace(french: string, english: string)
    requires PlainText(french) && PlainText(english)
    requires english == [] || (english[0] != ')' && english[|english| - 1] != ')')
    ensures ValidateMenu(french + " (" + english + ") ") == Ok(Menu(french, english))
  {
    var o := french + " (" + english + ") ";
    var before := french + " ";
    var closed := english + ")";
    var after := closed + " ";
    assert '(' !in before && '(' !in after;
    assert o == before + "(" + after by {
      TrailingAssoc(french, english);
    }
    assert Strip(before) == french by {
      FrenchSide(french);
    }
    assert Strip(after) == closed by {
      ClosedPadded(english);
    }
    assert Trim(closed, {')'}) == english by {
      ClosingTrim(english);
    }
    assert Strip(english) == english by {
      TrimTrimmed(english, Whitespace);
    }
    MenuSidesAt(o, before, after);
  }

  /** Regroups a concatenation. Kept as a lemma of its own: stated inline,
      the regrouping sends the solver into the surrounding string facts. */
  lemma TrailingAssoc(a: string, b: string)
    ensures (a + " ") + "(" + ((b + ")") + " ") == a + " (" + b + ") "
  {
  }

  /** `english) ` strips to `english)`. */
  lemma ClosedPadded(english: string)
    requires PlainText(english)
    ensures Strip((english + ")") + " ") == english + ")"
  {
    var closed := english + ")";
    assert closed[|closed| - 1] == ')';
    assert closed[0] !in Whitespace;
    TrimPadded(closed, " ", Whitespace);
  }

  /** Only the outer `)` is removed: a closing parenthesis inside the English
      text is kept, as in `a (b) c)`. */
  lemma InnerParenKept()
    ensures ValidateMenu("a" + " (" + "b) c" + ")") == Ok(Menu("a", "b) c"))
  {
    MenuRoundTrip("a", "b) c");
  }
}

=== FILE: text.dfy ===
/** The byte-string operations of Python 2 that the parsers rely on:
    `count`, `find`, `rfind`, `split`, `strip`, `lower` and digit decoding. */
module Text {
  import opened Results

  /** The characters `str.strip()` removes by default. */
  const Whitespace: set<char> := {' ', '\t', '\n', '\r', '\U{000B}', '\U{000C}'}

  /** `s.count(c)` for a single character. */
  function Count(s: string, c: char): (n: nat)
    ensures n == 0 <==> c !in s
    ensures n <= |s|
  {
    if s == [] then 0
    else
      assert s == [s[0]] + s[1..];
      (if s[0] == c then 1 else 0) + Count(s[1..], c)
  }

  lemma {:induction false} CountConcat(a: string, b: string, c: char)
    ensures Count(a + b, c) == Count(a, c) + Count(b, c)
  {
    if a == [] {
      assert a + b == b;
    } else {
      assert (a + b)[0] == a[0];
      assert (a + b)[1..] == a[1..] + b;
      CountConcat(a[1..], b, c);
    }
  }

  /** Index of the first `c` in `s` (`s.find(c)`), or None. */
  function IndexOf(s: string, c: char): (r: Option<nat>)
    ensures r.None? <==> c !in s
    ensures r.Some? ==> r.value < |s| && s[r.value] == c && c !in s[..r.value]
  {
    if s == [] then None
    else if s[0] == c then Some(0)
    else
      match IndexOf(s[1..], c)
      case None => None
      case Some(i) =>
        assert s[..i + 1] == [s[0]] + s[1..][..i];
        Some(i + 1)
  }

  /** Index of the last `c` in `s` (`s.rfind(c)`), or None. */
  function LastIndexOf(s: string, c: char): (r: Option<nat>)
    ensures r.None? <==> c !in s
    ensures r.Some? ==> r.value < |s| && s[r.value] == c && c !in s[r.value + 1..]
  {
    if s == [] then None
    else if s[|s| - 1] == c then Some(|s| - 1)
    else
      assert s == s[..|s| - 1] + [s[|s| - 1]];
      match LastIndexOf(s[..|s| - 1], c)
      case None => None
      case Some(i) =>
        assert s[i + 1..] == s[..|s| - 1][i + 1..] + [s[|s| - 1]];
        Some(i)
  }

  /** True when `p` occurs in `s` starting at index `j`. */
  predicate OccursAt(s: string, p: string, j: nat) {
    j + |p| <= |s| && s[j..j + |p|] == p
  }

  /** Index of the first occurrence of the non-empty pattern `p` (`s.find(p)`). */
  function Find(s: string, p: string): (r: Option<nat>)
    requires p != []
    ensures r.None? <==> forall j: nat :: !OccursAt(s, p, j)
    ensures r.Some? ==> OccursAt(s, p, r.value) && forall j: nat :: j < r.value ==> !OccursAt(s, p, j)
    decreases |s|
  {
    if |s| < |p| then
      assert forall j: nat :: !OccursAt(s, p, j);
      None
    else if s[..|p|] == p then
      assert OccursAt(s, p, 0);
      Some(0)
    else
      var r := Find(s[1..], p);
      assert !OccursAt(s, p, 0);
      forall j: nat ensures OccursAt(s, p, j + 1) <==> OccursAt(s[1..], p, j) {
        OccursShift(s, p, j);
      }
      match r
      case None =>
        assert forall j: nat :: !OccursAt(s, p, j) by {
          forall j: nat ensures !OccursAt(s, p, j) {
            if j > 0 {
              assert !OccursAt(s[1..], p, j - 1);
            }
          }
        }
        None
      case Some(i) =>
        assert OccursAt(s, p, i + 1);
        assert forall j: nat :: j < i + 1 ==> !OccursAt(s, p, j) by {
          forall j: nat | j < i + 1 ensures !OccursAt(s, p, j) {
            if j > 0 {
              assert !OccursAt(s[1..], p, j - 1);
            }
          }
        }
        Some(i + 1)
  }

  lemma OccursShift(s: string, p: string, j: nat)
    requires s != []
    ensures OccursAt(s, p, j + 1) <==> OccursAt(s[1..], p, j)
  {
    if j + 1 + |p| <= |s| {
      assert s[j + 1..j + 1 + |p|] == s[1..][j..j + |p|];
    }
  }

  /** Python's `s.split(c)` for a one-character separator. */
  function Split(s: string, c: char): (parts: seq<string>)
    ensures |parts| == Count(s, c) + 1
    ensures forall i :: 0 <= i < |parts| ==> c !in parts[i]
    decreases |s|
  {
    match IndexOf(s, c)
    case None => [s]
    case Some(i) =>
      var rest := Split(s[i + 1..], c);
      assert s == s[..i] + [c] + s[i + 1..];
      CountConcat(s[..i] + [c], s[i + 1..], c);
      CountConcat(s[..i], [c], c);
      assert ([s[..i]] + rest)[1..] == rest;
      [s[..i]] + rest
  }

  /** The inverse of `Split`: the parts glued back together with `c`. */
  function Join(parts: seq<string>, c: char): string
  {
    if parts == [] then ""
    else if |parts| == 1 then parts[0]
    else parts[0] + [c] + Join(parts[1..], c)
  }

  /** Joining the pieces of a split with the separator gives the text back. */
  lemma {:induction false} JoinSplit(s: string, c: char)
    ensures Join(Split(s, c), c) == s
    decreases |s|
  {
    match IndexOf(s, c)
    case None =>
    case Some(i) =>
      JoinSplit(s[i + 1..], c);
      assert s == s[..i] + [c] + s[i + 1..];
  }

  /** Splitting a joined sequence of separator-free parts gives the parts back. */
  lemma {:induction false} SplitJoin(parts: seq<string>, c: char)
    requires |parts| >= 1
    requires forall i :: 0 <= i < |parts| ==> c !in parts[i]
    ensures Split(Join(parts, c), c) == parts
    decreases |parts|
  {
    if |parts| == 1 {
      SplitNone(parts[0], c);
    } else {
      var rest := parts[1..];
      SplitJoin(rest, c);
      SplitCons(parts[0], Join(rest, c), c);
      assert [parts[0]] + rest == parts;
    }
  }

  /** Splitting peels off the text before the first separator. */
  lemma SplitCons(a: string, b: string, c: char)
    requires c !in a
    ensures Split(a + [c] + b, c) == [a] + Split(b, c)
  {
    var s := a + [c] + b;
    assert s[|a|] == c;
    assert IndexOf(s, c) == Some(|a|) by {
      var r := IndexOf(s, c).value;
      assert forall k :: 0 <= k < r ==> s[k] != c by {
        forall k | 0 <= k < r ensures s[k] != c {
          assert s[..r][k] == s[k];
        }
      }
      assert forall k :: 0 <= k < |a| ==> s[k] != c by {
        forall k | 0 <= k < |a| ensures s[k] != c {
          assert s[k] == a[k];
        }
      }
    }
    assert s[..|a|] == a;
    assert s[|a| + 1..] == b;
  }

  /** A string without the separator is a single piece. */
  lemma SplitNone(s: string, c: char)
    requires c !in s
    ensures Split(s, c) == [s]
  {
  }

  /** A string with exactly one separator splits into the two sides. */
  lemma SplitTwo(a: string, b: string, c: char)
    requires c !in a && c !in b
    ensures Split(a + [c] + b, c) == [a, b]
  {
    SplitCons(a, b, c);
    SplitNone(b, c);
  }

  /** `s` with the leading characters in `cs` removed. */
  function TrimStart(s: string, cs: set<char>): (r: string)
    ensures |r| <= |s| && r == s[|s| - |r|..]
    ensures r == [] || r[0] !in cs
    ensures forall i :: 0 <= i < |s| - |r| ==> s[i] in cs
    decreases |s|
  {
    if s != [] && s[0] in cs then TrimStart(s[1..], cs) else s
  }

  /** `s` with the trailing characters in `cs` removed. */
  function TrimEnd(s: string, cs: set<char>): (r: string)
    ensures |r| <= |s| && r == s[..|r|]
    ensures r == [] || r[|r| - 1] !in cs
    ensures forall i :: |r| <= i < |s| ==> s[i] in cs
    decreases |s|
  {
    if s != [] && s[|s| - 1] in cs then TrimEnd(s[..|s| - 1], cs) else s
  }

  /** `r` is the slice of `s` starting at `lo`, everything before and after it
      is in `cs`, and `r` neither starts nor ends with a character of `cs`. */
  predicate TrimmedAt(s: string, r: string, lo: nat, cs: set<char>) {
    && lo + |r| <= |s| && r == s[lo..lo + |r|]
    && AllIn(s[..lo], cs) && AllIn(s[lo + |r|..], cs)
    && (r == [] || (r[0] !in cs && r[|r| - 1] !in cs))
  }

  /** Every character of `t` is in `cs`. */
  predicate AllIn(t: string, cs: set<char>) {
    forall i :: 0 <= i < |t| ==> t[i] in cs
  }

  /** Python's `s.strip(chars)`: the middle slice of `s` left once the runs of
      `cs` characters at both ends are dropped. */
  function Trim(s: string, cs: set<char>): (r: string)
    ensures TrimmedAt(s, r, |s| - |TrimStart(s, cs)|, cs)
  {
    var t := TrimStart(s, cs);
    var r := TrimEnd(t, cs);
    TrimShape(s, t, r, cs);
    r
  }

  /** What `TrimStart` and `TrimEnd` promise, put together. */
  lemma TrimShape(s: string, t: string, r: string, cs: set<char>)
    requires |t| <= |s| && t == s[|s| - |t|..]
    requires t == [] || t[0] !in cs
    requires forall i :: 0 <= i < |s| - |t| ==> s[i] in cs
    requires |r| <= |t| && r == t[..|r|]
    requires r == [] || r[|r| - 1] !in cs
    requires forall i :: |r| <= i < |t| ==> t[i] in cs
    ensures TrimmedAt(s, r, |s| - |t|, cs)
  {
    var lo := |s| - |t|;
    SliceOfSuffix(s, t, r, lo, cs);
    HeadAllIn(s, lo, cs);
    TailAllIn(s, lo + |r|, cs);
  }

  lemma HeadAllIn(s: string, lo: nat, cs: set<char>)
    requires lo <= |s|
    requires forall i :: 0 <= i < lo ==> s[i] in cs
    ensures AllIn(s[..lo], cs)
  {
    forall i | 0 <= i < lo ensures s[..lo][i] in cs {
      assert s[..lo][i] == s[i];
    }
  }

  lemma TailAllIn(s: string, hi: nat, cs: set<char>)
    requires hi <= |s|
    requires forall i :: hi <= i < |s| ==> s[i] in cs
    ensures AllIn(s[hi..], cs)
  {
    var tail := s[hi..];
    forall i | 0 <= i < |tail| ensures tail[i] in cs {
      assert tail[i] == s[hi + i];
    }
  }

  /** A prefix `r` of the suffix `t` of `s` that starts at `lo`. */
  lemma SliceOfSuffix(s: string, t: string, r: string, lo: nat, cs: set<char>)
    requires lo + |t| == |s| && t == s[lo..]
    requires |r| <= |t| && r == t[..|r|]
    requires t == [] || t[0] !in cs
    requires forall i :: |r| <= i < |t| ==> t[i] in cs
    ensures r == s[lo..lo + |r|]
    ensures r == [] || r[0] !in cs
    ensures forall i :: lo + |r| <= i < |s| ==> s[i] in cs
  {
    assert s[lo..][..|r|] == s[lo..lo + |r|];
    if r != [] {
      assert r[0] == t[0];
    }
    forall i | lo + |r| <= i < |s| ensures s[i] in cs {
      assert s[i] == t[i - lo];
    }
  }

  /** Python's `s.strip()`: `s` without its leading and trailing whitespace;
      what it drops is whitespace, and what it keeps is one slice of `s`. */
  function Strip(s: string): (r: string)
    ensures TrimmedAt(s, r, |s| - |TrimStart(s, Whitespace)|, Whitespace)
  {
    Trim(s, Whitespace)
  }

  /** Stripping a stripped string changes nothing. */
  lemma StripIdempotent(s: string)
    ensures Strip(Strip(s)) == Strip(s)
  {
    TrimTrimmed(Strip(s), Whitespace);
  }

  /** A trimmed string is left as it is. */
  lemma TrimTrimmed(s: string, cs: set<char>)
    requires s == [] || (s[0] !in cs && s[|s| - 1] !in cs)
    ensures Trim(s, cs) == s
  {
  }

  /** Trimming ignores characters of `cs` appended to a trimmed string. */
  lemma TrimPadded(s: string, pad: string, cs: set<char>)
    requires s == [] || (s[0] !in cs && s[|s| - 1] !in cs)
    requires forall i :: 0 <= i < |pad| ==> pad[i] in cs
    ensures Trim(s + pad, cs) == s
  {
    if s == [] {
      assert s + pad == pad;
      AllTrimmed(pad, cs);
    } else {
      assert (s + pad)[0] == s[0];
      assert TrimStart(s + pad, cs) == s + pad;
      TrimEndPadded(s, pad, cs);
    }
  }

  lemma {:induction false} TrimEndPadded(s: string, pad: string, cs: set<char>)
    requires s == [] || s[|s| - 1] !in cs
    requires forall i :: 0 <= i < |pad| ==> pad[i] in cs
    ensures TrimEnd(s + pad, cs) == s
    decreases |pad|
  {
    if pad == [] {
      assert s + pad == s;
    } else {
      var sp := s + pad;
      var shorter := pad[..|pad| - 1];
      assert sp[|sp| - 1] == pad[|pad| - 1];
      assert sp[..|sp| - 1] == s + shorter;
      TrimEndPadded(s, shorter, cs);
    }
  }

  /** A string made only of characters in `cs` trims to nothing. */
  lemma {:induction false} AllTrimmed(s: string, cs: set<char>)
    requires forall i :: 0 <= i < |s| ==> s[i] in cs
    ensures Trim(s, cs) == []
    decreases |s|
  {
    if s != [] {
      AllTrimmed(s[1..], cs);
    }
  }

  /** Membership in a slice implies membership in the whole. */
  lemma InSlice(s: string, lo: nat, hi: nat, c: char)
    requires lo <= hi <= |s|
    requires c !in s
    ensures c !in s[lo..hi]
  {
    forall k | 0 <= k < hi - lo ensures s[lo..hi][k] != c {
      assert s[lo..hi][k] == s[lo + k];
    }
  }

  /** ASCII lower-casing (`str.lower()` on a Python 2 byte string). */
  function LowerChar(c: char): char {
    if 'A' <= c <= 'Z' then (c as int + 32) as char else c
  }

  function Lower(s: string): (r: string)
    ensures |r| == |s|
    ensures forall i :: 0 <= i < |s| ==> r[i] == LowerChar(s[i])
  {
    seq(|s|, i requires 0 <= i < |s| => LowerChar(s[i]))
  }

  predicate IsDigit(c: char) {
    '0' <= c <= '9'
  }

  function DigitValue(c: char): (n: int)
    requires IsDigit(c)
    ensures 0 <= n <= 9
  {
    c as int - '0' as int
  }

  function DigitChar(n: int): (c: char)
    requires 0 <= n <= 9
    ensures IsDigit(c) && DigitValue(c) == n
  {
    (n + '0' as int) as char
  }
}
